=== FILE: README.md ===
# Quest Chronicles character core in Dafny

A functional model of the in-memory character state machine of the Quest
Chronicles turn-based RPG, with its properties proved by Dafny.

The character is a record of integers, two lists of string ids (inventory and
quests) and two equipment slots. Every operation is a pure function that takes
a `Character` and returns a new one, or an `Err` naming the exception the
Python code raises. The model covers five parts of the game:

- **progression** (`character_manager.py`): class-based creation, the
  multi-level experience loop (threshold `level * 100`), gold that never goes
  negative, heal and revive (module `Progression`, file `progression.dfy`);
- **stat recalculation** (`game_data.py`): derived stats are reset to the base
  values and then get at most one weapon and one armour bonus. Health is
  rescaled to the old health ratio. The file's own `gain_experience` variant is
  modelled too (module `Stats`, file `stats.dfy`);
- **inventory and equipment** (`inventory_system.py`): a list of at most 20
  item ids, consumable effects, equipping and unequipping with the `"NONE"`
  sentinel, and the shop (module `Inventory`, file `inventory.dfy`);
- **quests** (`quest_handler.py`): accept, complete and abandon over the
  active and completed lists, eligibility, the prerequisite chain with its
  `INVALID_PREREQUISITE` marker, and load-time validation (module `Quests`,
  file `quests.dfy`);
- **combat** (`combat_system.py`): enemies, the damage rule, the class
  abilities and their cooldown, one battle round, and a battle run over a
  script of moves (module `Combat`, file `combat.dfy`). `get_victory_rewards`
  is the helper `Combat.VictoryRewards`; what it returns is stated by the
  contracts of `Combat.HandleVictory`, `Combat.Fight` and `Combat.StartBattle`.
  `get_total_quest_rewards_earned` is `Quests.TotalRewards`, the sum
  `Quests.SumRewards` over the completed list (quests missing from the table
  add nothing); what it adds up is stated by `Quests.SumRewardsAppend` and
  `Quests.CompleteAddsRewards`.

Supporting modules hold the shared pieces:

- `Errors` has the error kinds and the `Result` and `Option` types.
- `Entities` has the records.
- `Text` models the Python string functions the item files rely on:
  `strip`, ASCII `lower`, `split(sep, 1)` and `int()`.
- `Sequences` has remove-first-occurrence, counting, filtering and reversal.

An equipment slot holds an item id, the sentinel `"NONE"`, or the empty string.
The empty string stands for Python's `None`. Randomness (escape attempts and
the Rogue's critical strike) is a boolean coin passed in with each move.

## Model

| member | source | states |
|---|---|---|
| Progression.CreateCharacter | character_manager.py:36-79 | Any class outside Warrior, Mage, Rogue and Cleric is refused. Otherwise the result is level 1 with 0 experience and 100 gold. Health, max health and base health all equal the class's base health, and strength and magic equal their base values. Defense and attack are 0, the item and quest lists are empty, and both slots are `"NONE"`. |
| Progression.CreatedIsValid | character_manager.py:36-79 | Every created character meets the progression invariant: level at least 1, experience in [0, level*100), no debt, and health in [0, max] with a positive max. |
| Progression.LevelUpLoop | character_manager.py:296-311 | The loop stops with experience below the final level's threshold and the level never falls. Every experience point is accounted for: the start equals what is left plus the sum of the thresholds passed. Base health, strength and magic grow by exactly 10, 2 and 2 per level gained, and no other field changes. |
| Progression.GainExperience | character_manager.py:283-325 | A dead character is refused with `CharacterDead`. Otherwise the amount is added and levels are taken as in the loop. The result flag holds exactly when a level was gained. Then max health, strength and magic equal the new base values and health equals max health. Without a level-up only the experience changes. |
| Progression.GainExperienceKeepsValid | character_manager.py:296-311 | A non-negative grant to a living valid character succeeds and keeps the invariant, and level and base stats never decrease. |
| Progression.LevelUpLoopSplit | character_manager.py:296-311 | Running the loop, adding more experience and running it again ends where one run over the total ends. |
| Progression.LevelUpLoopLocal | character_manager.py:296-311 | The loop's result on level, experience and base stats depends only on those fields. |
| Progression.GainExperienceTwice | character_manager.py:283-311 | Granting `a` and then `b` gives the same level, experience and base stats as granting `a + b` at once. |
| Progression.TwoHundredFiftyXpExample | character_manager.py:296-311 | A level-1 character granted 250 experience reaches level 2 with 150 left. |
| Progression.AddGold | character_manager.py:327-340 | A change that would leave gold below 0 is refused with `NegativeGold` and changes nothing. Otherwise gold becomes gold + amount, which is returned, and nothing else changes. The same holds for `add_gold` in game_data.py. |
| Progression.AddGoldRoundTrip | character_manager.py:327-340 | Adding an amount and then its negation gives back the original character and balance. |
| Progression.Heal | character_manager.py:342-360 | At or above max health, or with a non-positive amount, the result is no change and 0. Otherwise health rises by min(amount, max - health), that gain is returned, and nothing else changes. The same holds for `heal_character` in game_data.py. |
| Progression.HealAdditive | character_manager.py:342-360 | Two heals by positive amounts restore the same health, and report the same total, as one heal by their sum. |
| Progression.HealKeepsRange | character_manager.py:342-360 | Healing keeps health within [0, max health]. |
| Progression.Revive | character_manager.py:369-384 | A living character is returned unchanged with `false`. A dead one gets health max(1, max // 2) and `true`, and nothing else changes. The same holds for `revive_character` in game_data.py. |
| Progression.ReviveRestoresLife | character_manager.py:369-384 | A revived character is alive, and reviving it again changes nothing. Its health is in range when the max is positive and was not exceeded. |
| Progression.ReviveFloorExample | character_manager.py:376-382 | A dead character with max health 1 comes back with 1 health, not 0. |
| Stats.ReadBonus | game_data.py:383-389 | An effect with no ':' contributes no bonus. |
| Stats.ReadBonusOfWritten | game_data.py:383-389 | An effect written as `name: value`, with a lower-case name that has no ':' and no surrounding blanks, reads back as exactly that name and integer. |
| Stats.ApplyBonus | game_data.py:392-401 | A bonus adds its value to the one derived stat it names. An unknown name or an unreadable effect adds nothing, and no other field changes. |
| Stats.Equipped | game_data.py:351-405 | After the reset and the bonus pass, the derived stats equal the reference: base values (0 for defense and attack) plus the weapon's and the armour's bonus. Only derived fields change. |
| Stats.RescaleHealth | game_data.py:357-359 | For a non-negative new max, the rescaled health lies in [0, new max]. For health in range over a positive old max, it is the truncated quotient: h * old <= new * health < (h + 1) * old. |
| Stats.Recalculate | game_data.py:347-419 | Derived stats equal the reference definition, and only the derived stats and health change. For a non-negative new max, health ends in [0, new max] and keeps the old health/max ratio, truncated. When the old max was not positive the ratio counts as 1, so health becomes the new max. |
| Stats.RecalculateIdempotent | game_data.py:362-405 | A second recalculation gives the same derived stats. For a non-negative max health, the exact-quotient model gives back the same character; the float ratio in Python can lower health (see Stats.Recalculate under Left out). |
| Stats.IneffectiveSlotIgnored | game_data.py:376-404 | A slot whose item is missing, whose effect cannot be read, or whose stat name is unknown gives the same derived stats as an empty slot. |
| Stats.CreatedIsRecalculated | game_data.py:347-419 | Recalculating a freshly created character changes nothing, provided no item is registered under `"NONE"`. |
| Stats.HealthRatioExample | game_data.py:357-417 | At 40/80 health, armour of "max_health: 20" gives 50/100. |
| Stats.GainStoredExperience | game_data.py:276-313 | A dead character is refused. Otherwise only the experience already stored goes through the level-up loop. On a level-up max health becomes the new base health and health is refilled; strength and magic stay as they are. Without one, nothing changes. |
| Stats.StoredExperienceIgnoresAmount | game_data.py:280-303 | The amount passed makes no difference. The result is the character_manager.py version with amount 0, except that strength and magic are left alone. |
| Inventory.AddItem | inventory_system.py:29-44 | With 20 or more items the add is refused with `InventoryFull` and nothing changes. Otherwise the id is appended at the end, the length grows by one, and nothing else changes. |
| Inventory.RemoveItem | inventory_system.py:46-74 | An id that is not carried is refused with `ItemNotFound`. Otherwise exactly the first occurrence is removed, the other entries keep their order, and the multiset loses one copy. |
| Inventory.AddThenRemove | inventory_system.py:29-74 | After an add, removing the same id succeeds and gives back the same multiset of items. When the id was not carried before, it gives back the original character. |
| Inventory.CountItem | inventory_system.py:83-100 | The counting loop returns the number of positions holding the id, which is positive exactly when `has_item` holds. |
| Inventory.SpaceRemaining | inventory_system.py:102-114 | The result is 0 exactly when 20 or more items are carried. Otherwise it is 20 minus the count. |
| Inventory.AddUsesSpace | inventory_system.py:35-44 | An add succeeds exactly when there is space left, and it uses one place. |
| Inventory.ParseItemEffect | inventory_system.py:134-157 | An effect without ": " is refused with `InvalidItemType`, and every refusal has that kind. Otherwise the effect is cut at its first ": ". It is accepted exactly when the stripped text after the cut is an integer. The result is then the stripped, lower-cased text before the cut and that integer. |
| Inventory.ParseItemEffectPadded | inventory_system.py:147-155 | Whitespace around the stat name and around the number is ignored, and so is the letter case of the name: `" Strength :  5 "`-style effects parse to the lower-case name and the value. |
| Inventory.ParseItemEffectOfWritten | inventory_system.py:134-157 | An effect written as `name: value` parses back to exactly that name and value. |
| Inventory.EffectFormatsDiffer | inventory_system.py:143-147 | "strength:5" gives equipment a +5 strength bonus but is refused as a consumable effect. |
| Inventory.ClampHealth | inventory_system.py:172-177 | The clamp never goes below 0. It does not exceed a non-negative max, and health already in range is kept. |
| Inventory.ApplyStatEffect | inventory_system.py:159-181 | An unknown stat name changes nothing. An allowed stat changes only that field, by the value. Health is clamped into [0, max] and max health is floored at 1. |
| Inventory.StatEffectHealthRange | inventory_system.py:159-181 | Every effect except a max-health one keeps health in range. A max-health effect keeps the max at least 1, and keeps health in range when the value is not negative. |
| Inventory.MaxHealthDropExample | inventory_system.py:179-181 | A -50 max-health effect at 100/100 leaves 100/50: health is not re-clamped. |
| Inventory.UseItem | inventory_system.py:187-227 | The checks come in order: not carried gives `ItemNotFound`; a type other than consumable (any case) gives `InvalidItemType`; an unparsable effect gives `InvalidItemType`. Each refusal changes nothing. On success the effect is applied and the first copy is cut out of the list; the other items keep their order. |
| Inventory.Stow | inventory_system.py:251-260 | The slot takes the id. An occupied slot's item is first appended at the end of the list. Then the first copy of the id is cut out of that list, and the other items keep their order. The count stays the same when the slot was occupied and drops by one otherwise. Multisets: the id goes out and the old item comes in. |
| Inventory.Equip | inventory_system.py:230-313 | The checks come in order, each before any change: not carried gives `ItemNotFound`; the wrong type for the slot gives `InvalidItemType`; an occupied slot with 20 or more items gives `InventoryFull`. Otherwise the slot holds the id, and the result is the moves of `Stow` followed by a recalculation against the given table. The recalculation does not touch the list, so the list order is the one `Stow` states. |
| Inventory.EquipSwapKeepsCount | inventory_system.py:251-260 | Swapping out an equipped item keeps the item count, and the old item is in the list afterwards. |
| Inventory.Unequip | inventory_system.py:316-364 | An empty or `"NONE"` slot returns nothing and changes nothing. With no space the call is refused with `InventoryFull`. Otherwise the old id is appended and returned, the slot becomes `"NONE"`, and the stats are recalculated. |
| Inventory.EquipUnequipRoundTrip | inventory_system.py:230-364 | Equipping into an empty slot and then unequipping gives back the same multiset of items and a `"NONE"` slot. The derived stats are those of the character with that slot `"NONE"`. |
| Inventory.EquipAsWrittenDropsBonus | inventory_system.py:263 | As written, the recalculation after equipping finds no item, so the derived stats are the bare base values. |
| Inventory.SwordExample | inventory_system.py:230-270 | A Warrior equipping a "strength: 5" sword stays at strength 15 as written, and reaches 20 against the full item table. |
| Inventory.EquipAppliesBonus | inventory_system.py:262-263 | Recalculated against the full item table, the derived stats after equipping are the base values plus both slots' bonuses. |
| Inventory.UnequipAsWrittenDropsOtherBonus | inventory_system.py:339 | As written, unequipping one slot also drops the other slot's bonus. |
| Inventory.UnequipKeepsOtherBonus | inventory_system.py:338-339 | Recalculated against the full item table, unequipping the weapon keeps the armour's bonus. |
| Inventory.Purchase | inventory_system.py:370-401 | The checks come in order, each before any change: an unreadable cost gives `InvalidItemType`, no space gives `InventoryFull`, and too little gold gives `InsufficientResources`. On success gold drops by the cost, the id is appended, and nothing else changes. |
| Inventory.Sell | inventory_system.py:404-432 | Not carried gives `ItemNotFound`, and an unreadable cost gives `InvalidItemType`. Otherwise the price is cost // 2 (rounded down, also for negative costs). A credit that would leave gold below 0 is refused. On success the first copy is cut out of the list, the other items keep their order, and the price is credited. |
| Inventory.PurchaseThenSell | inventory_system.py:370-432 | Buying an item with a non-negative cost and selling it back leaves the same items and costs exactly cost - cost // 2 gold. |
| Inventory.OperationsKeepCapacity | inventory_system.py:23-432 | Add, remove, use, equip, unequip, purchase and sell all keep the list at 20 items or fewer. |
| Quests.AcceptQuest | quest_handler.py:47-85 | The checks come in order: unknown id, already completed, already active (success with no change), level too low, then an unmet prerequisite that is neither empty nor `"NONE"`. Otherwise the id is appended once to the active list and nothing else changes. |
| Quests.CompleteQuest | quest_handler.py:88-133 | An unknown id gives `QuestNotFound`, and a quest that is not active gives `QuestNotActive`. Otherwise the first active occurrence is cut out and the other active quests keep their order. The id is appended to the completed list, and the quest's reward xp and gold are returned. |
| Quests.AbandonQuest | quest_handler.py:135-157 | A quest that is not active gives `QuestNotActive`. Otherwise only the first active occurrence is cut out, and the other active quests keep their order. The completed list, experience and gold do not change. |
| Quests.CanAcceptIffAccepted | quest_handler.py:229-260 | `can_accept_quest` holds exactly when accepting succeeds by appending the id. A refused or repeated accept that succeeds leaves the character unchanged. |
| Quests.TransitionsKeepLog | quest_handler.py:47-157 | Accept, complete and abandon keep the active list free of duplicates and disjoint from the completed list. |
| Quests.AvailableQuests | quest_handler.py:193-211 | The result lists exactly the quests in table order that pass the eligibility test, as a subsequence of that order. |
| Quests.AvailableIffCanAccept | quest_handler.py:193-211 | On a well-formed table, a quest is offered exactly when it can be accepted. |
| Quests.QuestsByLevel | quest_handler.py:340-361 | The result lists exactly the quests whose required level is in [lo, hi], in table order. |
| Quests.QuestsByLevelSplit | quest_handler.py:340-361 | A level range is the union of two adjacent sub-ranges. Every available quest is listed for the range from its required level to the character's level. |
| Quests.SumRewardsAppend | quest_handler.py:315-338 | Appending a defined quest to the completed list adds exactly its rewards to the totals. |
| Quests.CompleteAddsRewards | quest_handler.py:116-133 | Completing a quest raises the total rewards earned by exactly the rewards it returns. |
| Quests.Walk | quest_handler.py:271-284 | The walk starts at the given id, and each entry's prerequisite is the next entry. It ends either at a quest with no prerequisite or at a missing quest followed by the marker. |
| Quests.PrerequisiteChain | quest_handler.py:262-293 | An unknown id gives `QuestNotFound`. The chain ends with the quest, and each entry is the prerequisite of the entry after it. It starts either with a quest that has no prerequisite or with the marker followed by the missing quest. |
| Quests.ValidateFrom | quest_handler.py:442-457 | The loop succeeds exactly when every listed quest's prerequisite, if it names a quest, names a defined one. Otherwise it gives `QuestNotFound`. |
| Quests.ValidatePrerequisites | quest_handler.py:434-457 | On a well-formed table, validation succeeds exactly when the prerequisite links are closed. |
| Quests.WalkStaysDefined | quest_handler.py:275-284 | On a closed table the walk only visits defined quests. |
| Quests.ValidatedChainComplete | quest_handler.py:262-293 | After validation, every chain entry is a defined quest. So the missing-quest marker never appears, unless a quest itself has the marker's id. |
| Combat.CreateEnemy | combat_system.py:27-47 | Goblin, orc and dragon (any letter case) get their fixed stats and rewards, with max health equal to health. Any other kind gives `InvalidTarget`. |
| Combat.EnemyForLevel | combat_system.py:49-63 | Levels up to 2 get a goblin, levels up to 5 an orc, and higher levels a dragon, each exactly as created by kind. |
| Combat.EnemyGrowsWithLevel | combat_system.py:49-63 | A higher level never meets an enemy with less health, strength or reward. |
| Combat.Damage | combat_system.py:218-236 | Damage is at least 1. It is max(1, attacker strength - defender strength // 4). |
| Combat.WeakAttackExample | combat_system.py:218-236 | Strength 5 against strength 40 deals 1. |
| Combat.ApplyDamage | combat_system.py:238-251 | Health becomes health - damage, or 0 when that would be negative. |
| Combat.DamageNeverHeals | combat_system.py:306-311 | Non-negative damage never raises health or takes it below 0. Damage of at least 1 strictly lowers positive health. |
| Combat.BattleEnd | combat_system.py:254-265 | The player wins exactly when the enemy's health is at most 0, checked first. The enemy wins exactly when the enemy is alive and the hero is not. Otherwise the battle goes on. |
| Combat.ClericHeal | combat_system.py:337-352 | Health rises by 30 but not above the max, and the amount reported is the change in health. Nothing else changes. |
| Combat.UseSpecialAbility | combat_system.py:277-335 | Within 3 turns of the last use the call is refused with `AbilityOnCooldown` and nothing changes. Otherwise the turn is recorded and the class acts: Warrior deals 2×strength, Mage 2×magic, Rogue 3×strength on a true coin and 1×strength otherwise, and Cleric heals. Any other class does nothing. Only the fighters' health can change; their other fields stay as they were. |
| Combat.CooldownLastsThreeTurns | combat_system.py:283-287 | After a use, the ability is refused for the next two turns and is open again from the third. |
| Combat.Round | combat_system.py:99-150 | The turn counter rises by one. An ability on cooldown ends the round at once, skipping the end check and the enemy's turn. A ready ability records this turn as its last use and leaves the foe's health as the ability set it; every other round leaves the last-use turn alone. An escape happens exactly on Run with a true coin. A plain attack takes max(1, hero strength - foe strength // 4) from the foe. When both are still standing after the player's action, the enemy hits back for max(1, foe strength - hero strength // 4); otherwise the hero keeps the health the player's action left. Each fighter changes only in health. Any other round that goes on leaves both fighters alive, and a won round's winner is the end check's answer. |
| Combat.AbilityRoundCoolsDown | combat_system.py:283-287 | The cooldown carries over between rounds. After a round whose ability went off and that did not end the battle, an ability asked for in the next round is refused, and that round only advances the turn. |
| Combat.AttackWounds | combat_system.py:118-144 | A plain attack round that does not end the battle always wounds a living foe. |
| Combat.HandleVictory | combat_system.py:154-177 | A player win earns the enemy's xp and gold rewards, read through `get_victory_rewards`. An enemy win earns 0 and 0. |
| Combat.Fight | combat_system.py:99-152 | Only health changes over a battle, so the final foe is the starting foe with new health. A player win means the foe's health is at most 0 and pays exactly the starting foe's xp and gold rewards. An enemy win means the hero's health is at most 0, with no rewards. An escape gives no winner and no rewards. |
| Combat.StartBattle | combat_system.py:84-152 | A hero with health at most 0 is refused with `CharacterDead`. Otherwise a player win leaves the foe at most 0 health and pays that foe's xp and gold rewards. An enemy win or an escape pays nothing. |
| Combat.AttacksStartBattle | combat_system.py:84-177 | A living hero who attacks for at least as many rounds as the foe has health is let into the battle and it ends with a winner. A hero win pays the starting foe's rewards and an enemy win pays 0 and 0. |
| Combat.AttacksFinish | combat_system.py:99-150 | A hero who attacks every round ends any battle, with a winner, within max(1, foe health) rounds. |
| Sequences.RemoveFirst | inventory_system.py:60-73 | The skip-first-match copy loop: an absent element leaves the list as it is. Otherwise exactly the first occurrence goes, the rest keep their order, and the multiset loses one copy. |
| Sequences.Count | inventory_system.py:94-98 | The count equals the element's multiplicity. |
| Sequences.RemoveFirstDistinct | quest_handler.py:103-114 | In a list without duplicates, removing the first occurrence removes the element entirely and keeps the list duplicate-free. |
| Sequences.Reverse | quest_handler.py:287-291 | Position i of the result holds position len - 1 - i of the input. |
| Text.ParseFormatRoundTrip | inventory_system.py:151-155 | `int()` reads back every integer that `str()` writes. |

## Left out

- File I/O is left out: saving, loading, listing and deleting characters in
  character_manager.py and game_data.py. It is disk access.
- `validate_character_data` is left out. It converts values of unknown type,
  and typed records have no counterpart.
- The display and print functions are left out, and so are the message
  strings that `use_item` and the equip functions return.
- main.py is left out. It is the interactive menu loop over console input and
  global state.
- Not modelled: `clear_inventory`, `get_active_quests`, `get_completed_quests`,
  `can_character_fight`, `player_turn` and `basic_attack` as separate
  operations. A plain attack is part of `Combat.Round`.
- game_data.py's `add_gold`, `heal_character`, `is_character_dead` and
  `revive_character` have the same code as the character_manager.py versions,
  so each is modelled once, in `Progression`. game_data.py's
  `create_character` differs only in using `None` slots; it is not modelled
  separately.
- `take_damage` in game_data.py and `get_quest_completion_percentage` are left
  out because they use floating point.
- Stats.Recalculate: health uses the exact truncated quotient
  `new_max * health / old_max`, where Python multiplies by a float ratio. The
  float product can round to one less in rare cases. Health 1 at max 49 is
  one: Python's ratio times 49 falls just short of 1 and truncates to 0.
  Stats.RecalculateIdempotent's whole-character part therefore holds for the
  model only; in Python a second recalculation can lower health.
- Stats.Recalculate: the result's health bounds are stated only for a
  non-negative new max health. The code does not floor max health at 1 here.
- Random choices are a coin passed in: `attempt_escape` and the Rogue's
  critical roll. `start_battle` always picks move '1'; the model takes moves
  from a script instead, and a script that runs out gives `Unfinished`.
- Quests.PrerequisiteChain: where the prerequisite links form a cycle, Python
  loops forever. The model stops and returns `PrerequisiteCycle` instead.
- Quests.CompleteQuest: rewards are returned to the caller rather than granted.
  The stand-in `gain_experience` and `add_gold` at the top of quest_handler.py
  are not modelled.
- Quests.AvailableQuests and Quests.QuestsByLevel return quest ids where the
  source returns the quest records.
- Inventory.Sell: when crediting the price fails (a negative cost with too
  little gold), Python has already removed the item. The model returns the
  error with no change.
- Inventory.EquipAsWritten and Inventory.UnequipAsWritten model the item record
  or `{}` passed as the item table as an empty table. This ignores item ids
  that happen to equal a record key such as `NAME`.
- Inventory.UseItem: the generic exception wrapper around applying an effect is
  not modelled, since the typed model cannot fail there.
- Inventory.Purchase: an item with a missing cost, which raises `TypeError` in
  Python, is not modelled. A cost is always a string.
- Stats.ReadBonus: its own contract states only the no-':' case. What it reads
  from a well-formed effect is stated by Stats.ReadBonusOfWritten.
- Text.Lower: lower-casing covers ASCII letters only. Python's `int()`
  also accepts non-ASCII digits, which the model does not.
- Missing dictionary keys, and the defaults `.get` supplies for them, are not
  modelled. The records always have every field.

## Findings

| source | as written | input that shows it | evidently intended | confidence | as-written member | corrected member |
|---|---|---|---|---|---|---|
| inventory_system.py:263 | `equip_weapon`/`equip_armor` recalculate stats against the equipped item's own record instead of the item table, so no equipped id is found | A Warrior (strength 15) equips a sword with EFFECT "strength: 5": strength stays 15 | Recalculate against the full item table, so strength becomes 20 | not executed | Inventory.EquipAsWrittenDropsBonus | Inventory.EquipAppliesBonus |
| inventory_system.py:339 | `unequip_weapon`/`unequip_armor` recalculate stats against `{}` | A character wearing armour of "defense: 5" unequips the weapon: defense drops to 0 | Recalculate against the full item table, so the armour's +5 defense is kept | not executed | Inventory.UnequipAsWrittenDropsOtherBonus | Inventory.UnequipKeepsOtherBonus |
| game_data.py:280-303 | `gain_experience` converts `xp_amount` but never adds it to the stored experience | A level-1 character with 0 experience gains 250: it stays at level 1 with 0 experience | Add the amount before the level-up loop, as character_manager.py does, reaching level 2 with 150 | not executed | Stats.StoredExperienceIgnoresAmount | Progression.GainExperience |

=== FILE: combat.dfy ===
/** The combat resolver of combat_system.py: enemies, the damage rules, the
    class abilities with their cooldown, one round of a battle, and a battle
    run over a script of player moves. The random choices (escape, the Rogue's
    critical strike) are a coin passed in with each move. */
module Combat {
  import opened Errors
  import opened Text
  import opened Entities

  /** `create_enemy`: goblin, orc or dragon, named in any letter case; any
      other kind is not a valid target. A new enemy is at full health. */
  function CreateEnemy(kind: string): (r: Result<Enemy>)
    ensures r.Err? <==> Lower(kind) !in {"goblin", "orc", "dragon"}
    ensures r.Err? ==> r.error == InvalidTarget
    ensures r.Ok? ==> r.value.maxHealth == r.value.health > 0 && r.value.kind == Lower(kind)
    ensures Lower(kind) == "goblin" ==> r == Ok(Enemy("Goblin", "goblin", 50, 50, 8, 2, 25, 10))
    ensures Lower(kind) == "orc" ==> r == Ok(Enemy("Orc", "orc", 80, 80, 12, 5, 50, 25))
    ensures Lower(kind) == "dragon" ==> r == Ok(Enemy("Dragon", "dragon", 200, 200, 25, 15, 200, 100))
  {
    var k := Lower(kind);
    if k == "goblin" then Ok(Enemy("Goblin", "goblin", 50, 50, 8, 2, 25, 10))
    else if k == "orc" then Ok(Enemy("Orc", "orc", 80, 80, 12, 5, 50, 25))
    else if k == "dragon" then Ok(Enemy("Dragon", "dragon", 200, 200, 25, 15, 200, 100))
    else Err(InvalidTarget)
  }

  /** `get_random_enemy_for_level`: a goblin up to level 2, an orc up to level
      5, a dragon beyond. */
  function EnemyForLevel(level: int): (e: Enemy)
    ensures level <= 2 ==> e.kind == "goblin"
    ensures 2 < level <= 5 ==> e.kind == "orc"
    ensures level > 5 ==> e.kind == "dragon"
    ensures CreateEnemy(e.kind) == Ok(e)
  {
    var kind := if level <= 2 then "goblin" else if level <= 5 then "orc" else "dragon";
    KindsLower();
    CreateEnemy(kind).value
  }

  /** The three enemy kinds are written in lower case. */
  lemma KindsLower()
    ensures Lower("goblin") == "goblin" && Lower("orc") == "orc" && Lower("dragon") == "dragon"
  {
    LowerUnchanged("goblin");
    LowerUnchanged("orc");
    LowerUnchanged("dragon");
  }

  /** A higher level never meets a weaker or poorer enemy. */
  lemma EnemyGrowsWithLevel(a: int, b: int)
    requires a <= b
    ensures EnemyForLevel(a).maxHealth <= EnemyForLevel(b).maxHealth
    ensures EnemyForLevel(a).strength <= EnemyForLevel(b).strength
    ensures EnemyForLevel(a).xpReward <= EnemyForLevel(b).xpReward
    ensures EnemyForLevel(a).goldReward <= EnemyForLevel(b).goldReward
  {
  }

  /** `calculate_damage`: the attacker's strength less a quarter (rounded
      down) of the defender's, but at least 1. */
  function Damage(attackerStrength: int, defenderStrength: int): (d: int)
    ensures d >= 1
    ensures d >= attackerStrength - defenderStrength / 4
    ensures d == 1 || d == attackerStrength - defenderStrength / 4
  {
    var raw := attackerStrength - defenderStrength / 4;
    if raw < 1 then 1 else raw
  }

  /** A strength-5 attacker against a strength-40 defender still deals 1. */
  lemma WeakAttackExample()
    ensures Damage(5, 40) == 1
  {
  }

  /** `apply_damage` and `_apply_ability_damage`: health drops by the damage
      but not below 0. */
  function ApplyDamage(health: int, damage: int): (h: int)
    ensures h >= 0
    ensures health - damage >= 0 ==> h == health - damage
    ensures health - damage < 0 ==> h == 0
  {
    if health - damage < 0 then 0 else health - damage
  }

  /** Damage never heals, and health already in range stays in range. */
  lemma DamageNeverHeals(health: int, damage: int)
    requires health >= 0 && damage >= 0
    ensures 0 <= ApplyDamage(health, damage) <= health
    ensures damage >= 1 && health > 0 ==> ApplyDamage(health, damage) < health
  {
  }

  /** The battle state: the two fighters, the turn counter and the turn the
      special ability was last used on. */
  datatype Battle = Battle(hero: Character, foe: Enemy, turn: int, lastAbilityTurn: int)

  /** A new battle, as `SimpleBattle(character, enemy)` sets it up. */
  function NewBattle(hero: Character, foe: Enemy): Battle {
    Battle(hero, foe, 0, 0)
  }

  datatype Winner = Player | Foe

  /** `check_battle_end`: a defeated enemy means the player won, whatever the
      hero's health; otherwise a defeated hero means the enemy won. */
  function BattleEnd(b: Battle): (w: Option<Winner>)
    ensures w == Some(Player) <==> b.foe.health <= 0
    ensures w == Some(Foe) <==> b.foe.health > 0 && b.hero.health <= 0
    ensures w == None <==> b.foe.health > 0 && b.hero.health > 0
  {
    if b.foe.health <= 0 then Some(Player)
    else if b.hero.health <= 0 then Some(Foe)
    else None
  }

  /** `cleric_heal`: health rises by 30 but not above the maximum; the amount
      reported is the change in health. */
  function ClericHeal(c: Character): (r: (Character, int))
    ensures r.0 == c.(health := r.0.health)
    ensures r.1 == r.0.health - c.health
    ensures c.health + 30 <= c.maxHealth ==> r.0.health == c.health + 30
    ensures c.health + 30 > c.maxHealth ==> r.0.health == c.maxHealth
    ensures c.health <= c.maxHealth ==> 0 <= r.1 <= 30 && r.0.health <= c.maxHealth
  {
    var h := c.health + 30;
    if h > c.maxHealth then (c.(health := c.maxHealth), c.maxHealth - c.health)
    else (c.(health := h), 30)
  }

  /** The foe hit by an ability for `damage`. */
  function HitFoe(b: Battle, damage: int): Battle {
    b.(foe := b.foe.(health := ApplyDamage(b.foe.health, damage)))
  }

  /** `use_special_ability`: refused, with no change, until 3 turns have passed
      since the last use; otherwise the turn is recorded and the hero's class
      (in any letter case) decides: Warrior strikes for twice the strength,
      Mage for twice the magic, Rogue for three times the strength when the
      coin falls true and once otherwise, Cleric heals itself; any other class
      does nothing more. */
  function UseSpecialAbility(b: Battle, coin: bool): (r: Result<Battle>)
    ensures r.Err? <==> b.turn - b.lastAbilityTurn < 3
    ensures r.Err? ==> r.error == AbilityOnCooldown
    ensures r.Ok? ==> r.value.turn == b.turn && r.value.lastAbilityTurn == b.turn
    ensures r.Ok? ==> r.value.foe == b.foe.(health := r.value.foe.health)
    ensures r.Ok? ==> r.value.hero == b.hero.(health := r.value.hero.health)
    ensures r.Ok? ==> var cls := Lower(b.hero.charClass);
      && (cls == "warrior" ==> r.value.foe.health == ApplyDamage(b.foe.health, 2 * b.hero.strength))
      && (cls == "mage" ==> r.value.foe.health == ApplyDamage(b.foe.health, 2 * b.hero.magic))
      && (cls == "rogue" ==>
            r.value.foe.health == ApplyDamage(b.foe.health, if coin then 3 * b.hero.strength else b.hero.strength))
      && (cls == "cleric" ==> r.value.hero == ClericHeal(b.hero).0 && r.value.foe == b.foe)
      && (cls != "cleric" ==> r.value.hero == b.hero)
      && (cls !in {"warrior", "mage", "rogue"} ==> r.value.foe == b.foe)
  {
    if b.turn - b.lastAbilityTurn < 3 then Err(AbilityOnCooldown)
    else
      var b1 := b.(lastAbilityTurn := b.turn);
      var cls := Lower(b.hero.charClass);
      if cls == "warrior" then Ok(HitFoe(b1, 2 * b.hero.strength))
      else if cls == "mage" then Ok(HitFoe(b1, 2 * b.hero.magic))
      else if cls == "rogue" then Ok(HitFoe(b1, if coin then 3 * b.hero.strength else b.hero.strength))
      else if cls == "cleric" then Ok(b1.(hero := ClericHeal(b.hero).0))
      else Ok(b1)
  }

  /** Once used, the ability stays refused for the next two turns and is open
      again on the third. */
  lemma CooldownLastsThreeTurns(b: Battle, coin: bool, later: int, coin2: bool)
    requires UseSpecialAbility(b, coin).Ok?
    ensures b.turn <= later < b.turn + 3 ==>
      UseSpecialAbility(UseSpecialAbility(b, coin).value.(turn := later), coin2) == Err(AbilityOnCooldown)
    ensures later >= b.turn + 3 ==>
      UseSpecialAbility(UseSpecialAbility(b, coin).value.(turn := later), coin2).Ok?
  {
  }

  /** The player's choice for one round. */
  datatype Move = Attack | Ability | Run | Other

  /** What a round leads to: the battle goes on, or it is over with a winner,
      or the hero got away. */
  datatype RoundResult = Continue(state: Battle) | Won(state: Battle, winner: Winner) | Escaped(state: Battle)

  /** The enemy's turn: it always attacks the hero. */
  function EnemyTurn(b: Battle): Battle {
    b.(hero := b.hero.(health := ApplyDamage(b.hero.health, Damage(b.foe.strength, b.hero.strength))))
  }

  /** The end check after the player's action, then the enemy's turn and the
      end check after it. */
  function Finish(b: Battle): RoundResult {
    match BattleEnd(b)
    case Some(w) => Won(b, w)
    case None =>
      var e := EnemyTurn(b);
      match BattleEnd(e)
      case Some(w) => Won(e, w)
      case None => Continue(e)
  }

  /** One pass of the `start_battle` loop: the turn counter goes up, the
      player acts, then, unless the ability was on cooldown (which ends the
      round at once) or the hero escaped, the end check, the enemy's attack and
      the end check again. */
  function Round(b: Battle, move: Move, coin: bool): (r: RoundResult)
    ensures r.state.turn == b.turn + 1
    ensures move == Ability && b.turn + 1 - b.lastAbilityTurn < 3 ==> r == Continue(b.(turn := b.turn + 1))
    ensures r.Escaped? <==> move == Run && coin
    ensures r.Continue? && !(move == Ability && b.turn + 1 - b.lastAbilityTurn < 3) ==>
      r.state.foe.health > 0 && r.state.hero.health > 0
    ensures r.Won? ==> BattleEnd(r.state) == Some(r.winner)
    ensures r.state.foe == b.foe.(health := r.state.foe.health)
    ensures r.state.hero == b.hero.(health := r.state.hero.health)
    ensures move == Attack ==>
      var foeHealth := ApplyDamage(b.foe.health, Damage(b.hero.strength, b.foe.strength));
      && r.state.foe.health == foeHealth
      && (foeHealth > 0 && b.hero.health > 0 ==>
            r.state.hero.health == ApplyDamage(b.hero.health, Damage(b.foe.strength, b.hero.strength)))
      && (foeHealth <= 0 || b.hero.health <= 0 ==> r.state.hero == b.hero)
    ensures (move == Other || (move == Run && !coin)) ==>
      && r.state.foe == b.foe
      && (b.foe.health > 0 && b.hero.health > 0 ==>
            r.state.hero.health == ApplyDamage(b.hero.health, Damage(b.foe.strength, b.hero.strength)))
      && (b.foe.health <= 0 || b.hero.health <= 0 ==> r.state.hero == b.hero)
    ensures !(move == Ability && b.turn + 1 - b.lastAbilityTurn >= 3) ==>
      r.state.lastAbilityTurn == b.lastAbilityTurn
    ensures move == Ability && b.turn + 1 - b.lastAbilityTurn >= 3 ==>
      && UseSpecialAbility(b.(turn := b.turn + 1), coin).Ok?
      && var u := UseSpecialAbility(b.(turn := b.turn + 1), coin).value;
      && r.state.lastAbilityTurn == b.turn + 1
      && r.state.foe.health == u.foe.health
      && (u.foe.health > 0 && u.hero.health > 0 ==>
            r.state.hero.health == ApplyDamage(u.hero.health, Damage(b.foe.strength, b.hero.strength)))
      && (u.foe.health <= 0 || u.hero.health <= 0 ==> r.state.hero == u.hero)
  {
    var b1 := b.(turn := b.turn + 1);
    match move
    case Attack => Finish(HitFoe(b1, Damage(b.hero.strength, b.foe.strength)))
    case Ability =>
      (match UseSpecialAbility(b1, coin)
       case Err(_) => Continue(b1)
       case Ok(b2) => Finish(b2))
    case Run => if coin then Escaped(b1) else Finish(b1)
    case Other => Finish(b1)
  }

  /** The cooldown carries over between rounds: after a round whose ability
      went off and that did not end the battle, an ability asked for in the
      next round is refused and that round only advances the turn. */
  lemma AbilityRoundCoolsDown(b: Battle, coin: bool, coin2: bool)
    requires b.turn + 1 - b.lastAbilityTurn >= 3
    requires Round(b, Ability, coin).Continue?
    ensures var b1 := Round(b, Ability, coin).state;
      && b1.lastAbilityTurn == b1.turn
      && Round(b1, Ability, coin2) == Continue(b1.(turn := b1.turn + 1))
  {
  }

  /** A plain attack round against a living foe always wounds it. */
  lemma AttackWounds(b: Battle, coin: bool)
    requires b.foe.health > 0
    requires Round(b, Attack, coin).Continue?
    ensures Round(b, Attack, coin).state.foe.health < b.foe.health
  {
  }

  /** How a battle over a script ends. */
  datatype BattleResult =
    | Done(final: Battle, winner: Option<Winner>, xp: int, gold: int)
    | Unfinished(final: Battle)

  /** `get_victory_rewards`: the enemy's experience and gold rewards. */
  function VictoryRewards(e: Enemy): (int, int) {
    (e.xpReward, e.goldReward)
  }

  /** `_handle_victory`: a player win earns the enemy's rewards, an enemy win
      nothing. */
  function HandleVictory(b: Battle, w: Winner): (r: BattleResult)
    ensures r.Done? && r.final == b && r.winner == Some(w)
    ensures w == Player ==> r.xp == b.foe.xpReward && r.gold == b.foe.goldReward
    ensures w == Foe ==> r.xp == 0 && r.gold == 0
  {
    var (xp, gold) := VictoryRewards(b.foe);
    match w
    case Player => Done(b, Some(Player), xp, gold)
    case Foe => Done(b, Some(Foe), 0, 0)
  }

  /** The battle loop run over `script`, one move and coin per round; when the
      script runs out before the battle ends the result is unfinished. An
      escape ends the battle with no winner and no rewards. Only health
      changes hands: each fighter's other fields stay those of `b`, so a
      win pays the rewards of the foe the battle started with. */
  function Fight(b: Battle, script: seq<(Move, bool)>): (r: BattleResult)
    ensures r.final.foe == b.foe.(health := r.final.foe.health)
    ensures r.final.hero == b.hero.(health := r.final.hero.health)
    ensures r.Done? && r.winner == Some(Player) ==> r.xp == b.foe.xpReward && r.gold == b.foe.goldReward
    ensures r.Done? && r.winner == Some(Player) ==> r.final.foe.health <= 0
    ensures r.Done? && r.winner == Some(Foe) ==> r.final.hero.health <= 0 && r.xp == 0 && r.gold == 0
    ensures r.Done? && r.winner.None? ==> r.xp == 0 && r.gold == 0
    decreases |script|
  {
    if script == [] then Unfinished(b)
    else
      match Round(b, script[0].0, script[0].1)
      case Won(b1, w) => HandleVictory(b1, w)
      case Escaped(b1) => Done(b1, None, 0, 0)
      case Continue(b1) => Fight(b1, script[1..])
  }

  /** `start_battle`: a hero already down is refused; otherwise the turn
      counter restarts at 0 and the loop runs. */
  function StartBattle(b: Battle, script: seq<(Move, bool)>): (r: Result<BattleResult>)
    ensures r.Err? <==> b.hero.health <= 0
    ensures r.Err? ==> r.error == CharacterDead
    ensures r.Ok? && r.value.Done? && r.value.winner == Some(Player) ==>
      r.value.final.foe.health <= 0 && r.value.xp == b.foe.xpReward && r.value.gold == b.foe.goldReward
    ensures r.Ok? && r.value.Done? && r.value.winner == Some(Foe) ==> r.value.xp == 0 && r.value.gold == 0
    ensures r.Ok? && r.value.Done? && r.value.winner.None? ==> r.value.xp == 0 && r.value.gold == 0
    ensures r.Ok? ==> r.value.final.foe == b.foe.(health := r.value.final.foe.health)
  {
    if b.hero.health <= 0 then Err(CharacterDead) else Ok(Fight(b.(turn := 0), script))
  }

  /** A script of `n` plain attacks. */
  function Attacks(n: nat): (s: seq<(Move, bool)>)
    ensures |s| == n && forall i :: 0 <= i < n ==> s[i] == (Attack, false)
  {
    if n == 0 then [] else [(Attack, false)] + Attacks(n - 1)
  }

  /** Attacking every round, the hero ends any battle within as many rounds as
      the foe has health (and at least one): every round that does not end it
      wounds the foe. */
  lemma {:induction false} AttacksFinish(b: Battle, n: nat)
    requires b.hero.health > 0 && n >= 1 && n >= b.foe.health
    ensures Fight(b, Attacks(n)).Done? && Fight(b, Attacks(n)).winner.Some?
    decreases n
  {
    var s := Attacks(n);
    assert s[0] == (Attack, false);
    assert s[1..] == Attacks(n - 1);
    match Round(b, Attack, false)
    case Won(_, _) =>
    case Escaped(_) =>
    case Continue(b1) =>
      AttackWounds(b, false);
      AttacksFinish(b1, n - 1);
  }

  /** A living hero who attacks every round, for at least as many rounds as
      the foe has health, is let into the battle and ends it with a winner;
      when that winner is the hero, the rewards are exactly those of the foe
      the battle started with. */
  lemma AttacksStartBattle(b: Battle, n: nat)
    requires b.hero.health > 0 && n >= 1 && n >= b.foe.health
    ensures StartBattle(b, Attacks(n)).Ok?
    ensures var r := StartBattle(b, Attacks(n)).value;
      && r.Done? && r.winner.Some?
      && (r.winner == Some(Player) ==> (r.xp, r.gold) == (b.foe.xpReward, b.foe.goldReward))
      && (r.winner == Some(Foe) ==> (r.xp, r.gold) == (0, 0))
  {
    AttacksFinish(b.(turn := 0), n);
  }
}

=== FILE: entities.dfy ===
/** The records the game core passes around. Python keeps each of them as a
    dict with string keys; here each is a datatype with one field per key. */
module Entities {

  /** The `"NONE"` sentinel used for an empty equipment slot and for a quest
      without prerequisite. */
  const NoneId: string := "NONE"

  /** The player character. An equipment slot holds an item id, the sentinel
      `"NONE"`, or the empty string standing for Python's `None`. */
  datatype Character = Character(
    name: string,
    charClass: string,
    level: int,
    experience: int,
    gold: int,
    baseHealth: int,
    baseStrength: int,
    baseMagic: int,
    health: int,
    maxHealth: int,
    strength: int,
    magic: int,
    defense: int,
    attack: int,
    inventory: seq<string>,
    equippedWeapon: string,
    equippedArmor: string,
    activeQuests: seq<string>,
    completedQuests: seq<string>
  )

  /** An item definition as loaded from the item data file: its TYPE, EFFECT
      and COST entries are kept as the raw strings the file holds. */
  datatype Item = Item(name: string, itemType: string, effect: string, cost: string)

  /** Item id to item definition. */
  type ItemTable = map<string, Item>

  /** A quest definition. `prerequisite` is a quest id, `"NONE"`, or empty. */
  datatype Quest = Quest(
    title: string,
    requiredLevel: int,
    prerequisite: string,
    rewardXp: int,
    rewardGold: int
  )

  /** An enemy for one encounter. */
  datatype Enemy = Enemy(
    name: string,
    kind: string,
    health: int,
    maxHealth: int,
    strength: int,
    magic: int,
    xpReward: int,
    goldReward: int
  )

  /** A slot or prerequisite value that names an id: Python's truthiness test
      (`None` and the empty string fail it) plus the `"NONE"` sentinel check. */
  predicate IsId(s: string) {
    s != "" && s != NoneId
  }
}

=== FILE: errors.dfy ===
/** The exceptions the game core raises, and the Result/Option carriers that
    replace Python's raise-or-return. */
module Errors {

  /** One constructor per exception class the core raises. `NegativeGold` is the
      plain ValueError raised by add_gold; `PrerequisiteCycle` stands for the
      prerequisite walk that never terminates in the source. */
  datatype Error =
    | InvalidCharacterClass
    | CharacterDead
    | NegativeGold
    | InventoryFull
    | ItemNotFound
    | InvalidItemType
    | InsufficientResources
    | QuestNotFound
    | QuestAlreadyCompleted
    | QuestNotActive
    | InsufficientLevel
    | QuestRequirementsNotMet
    | InvalidTarget
    | AbilityOnCooldown
    | PrerequisiteCycle

  /** Either the value an operation returns or the exception it raises. */
  datatype Result<+T> = Ok(value: T) | Err(error: Error) {
    predicate IsFailure() {
      Err?
    }

    function PropagateFailure<U>(): Result<U>
      requires Err?
    {
      Err(error)
    }

    function Extract(): T
      requires Ok?
    {
      value
    }
  }

  /** Python's `None` or a value. */
  datatype Option<+T> = None | Some(value: T)
}

=== FILE: inventory.dfy ===
/** The inventory and equipment engine of inventory_system.py: a bounded list
    of item ids, consumables, the two equipment slots, and the shop. */
module Inventory {
  import opened Errors
  import opened Text
  import opened Entities
  import opened Sequences
  import Progression
  import Stats

  /** Most items a character can carry. */
  const MaxInventorySize: int := 20

  /** The carried list is within capacity. */
  predicate WithinCapacity(c: Character) {
    |c.inventory| <= MaxInventorySize
  }

  /** `add_item_to_inventory`: refused with no change when the list already
      holds the maximum; otherwise the id goes at the end. */
  function AddItem(c: Character, id: string): (r: Result<Character>)
    ensures r.Err? <==> |c.inventory| >= MaxInventorySize
    ensures r.Err? ==> r.error == InventoryFull
    ensures r.Ok? ==> r.value == c.(inventory := r.value.inventory)
    ensures r.Ok? ==> |r.value.inventory| == |c.inventory| + 1
    ensures r.Ok? ==> r.value.inventory[..|c.inventory|] == c.inventory
    ensures r.Ok? ==> r.value.inventory[|c.inventory|] == id
  {
    if |c.inventory| >= MaxInventorySize then Err(InventoryFull)
    else Ok(c.(inventory := c.inventory + [id]))
  }

  /** `remove_item_from_inventory`: refused when the id is not carried;
      otherwise exactly its first occurrence is dropped and every other entry
      keeps its relative order. */
  function RemoveItem(c: Character, id: string): (r: Result<Character>)
    ensures r.Err? <==> id !in c.inventory
    ensures r.Err? ==> r.error == ItemNotFound
    ensures r.Ok? ==> r.value == c.(inventory := r.value.inventory)
    ensures r.Ok? ==>
      var i := FirstIndex(c.inventory, id);
      r.value.inventory == c.inventory[..i] + c.inventory[i + 1..]
    ensures r.Ok? ==> multiset(r.value.inventory) == multiset(c.inventory) - multiset{id}
  {
    if id !in c.inventory then Err(ItemNotFound)
    else Ok(c.(inventory := RemoveFirst(c.inventory, id)))
  }

  /** Adding an id and then removing it gives back the same carried items,
      though the copy removed is the first one, not necessarily the one added. */
  lemma AddThenRemove(c: Character, id: string)
    requires AddItem(c, id).Ok?
    ensures RemoveItem(AddItem(c, id).value, id).Ok?
    ensures multiset(RemoveItem(AddItem(c, id).value, id).value.inventory) == multiset(c.inventory)
    ensures id !in c.inventory ==> RemoveItem(AddItem(c, id).value, id).value == c
  {
    var a := AddItem(c, id).value;
    assert a.inventory == c.inventory + [id];
    assert id in a.inventory;
    if id !in c.inventory {
      assert FirstIndex(a.inventory, id) == |c.inventory|;
      assert a.inventory[..|c.inventory|] == c.inventory;
    }
  }

  /** `has_item`. */
  predicate HasItem(c: Character, id: string) {
    id in c.inventory
  }

  /** `count_item`: the counting loop. The result is the number of positions of
      the carried list holding the id. */
  method CountItem(c: Character, id: string) returns (n: nat)
    ensures n == multiset(c.inventory)[id]
    ensures n == Count(c.inventory, id)
    ensures n > 0 <==> HasItem(c, id)
  {
    var inv := c.inventory;
    n := 0;
    var i := 0;
    while i < |inv|
      invariant 0 <= i <= |inv|
      invariant n == multiset(inv[..i])[id]
    {
      assert inv[..i + 1] == inv[..i] + [inv[i]];
      if inv[i] == id {
        n := n + 1;
      }
      i := i + 1;
    }
    assert inv[..i] == inv;
  }

  /** `get_inventory_space_remaining`: free places, never negative. */
  function SpaceRemaining(c: Character): (n: nat)
    ensures n == 0 <==> |c.inventory| >= MaxInventorySize
    ensures n > 0 ==> n + |c.inventory| == MaxInventorySize
  {
    if MaxInventorySize - |c.inventory| < 0 then 0 else MaxInventorySize - |c.inventory|
  }

  /** An add succeeds exactly when there is space left, and uses one place. */
  lemma AddUsesSpace(c: Character, id: string)
    ensures AddItem(c, id).Ok? <==> SpaceRemaining(c) > 0
    ensures AddItem(c, id).Ok? ==> SpaceRemaining(AddItem(c, id).value) == SpaceRemaining(c) - 1
  {
  }

  /** `parse_item_effect`: the effect must contain ": "; the text before the
      first ": " is the stat name (trimmed, lower-cased) and the text after it
      must read as an integer. Anything else is an invalid item. */
  function ParseItemEffect(effect: string): (r: Result<(string, int)>)
    ensures (forall j :: !OccursAt(effect, ": ", j)) ==> r == Err(InvalidItemType)
    ensures r.Err? ==> r.error == InvalidItemType
    ensures r.Ok? ==> forall i :: 0 <= i < |r.value.0| ==> !('A' <= r.value.0[i] <= 'Z')
    ensures var sp := SplitFirst(effect, ": ");
      sp.Some? ==>
        && (r.Ok? <==> ParseInt(Strip(sp.value.1)).Some?)
        && (r.Ok? ==> r.value == (Lower(Strip(sp.value.0)), ParseInt(Strip(sp.value.1)).value))
  {
    match SplitFirst(effect, ": ")
    case None => Err(InvalidItemType)
    case Some((a, b)) =>
      match ParseInt(Strip(b))
      case None => Err(InvalidItemType)
      case Some(v) => Ok((Lower(Strip(a)), v))
  }

  /** An effect written as `name: value`, with a lower-case unpadded name free
      of ':', parses back to that name and value. */
  lemma ParseItemEffectOfWritten(name: string, v: int)
    requires ':' !in name
    requires Lower(name) == name && Strip(name) == name
    ensures ParseItemEffect(name + ": " + FormatInt(v)) == Ok((name, v))
  {
    SplitWrittenColonBlank(name, FormatInt(v));
    ParseStrippedFormat(v);
  }

  /** The parser ignores whitespace around the stat name and around the
      number, and the letter case of the name. */
  lemma ParseItemEffectPadded(lead: string, name: string, gap: string, pad: string, v: int, trail: string)
    requires AllSpace(lead) && AllSpace(gap) && AllSpace(pad) && AllSpace(trail)
    requires ':' !in name && name != [] && !IsSpace(name[0]) && !IsSpace(name[|name| - 1])
    ensures ParseItemEffect((lead + name + gap) + ": " + (pad + FormatInt(v) + trail)) == Ok((Lower(name), v))
  {
    var a := lead + name + gap;
    var b := pad + FormatInt(v) + trail;
    PaddedNoColon(lead, name, gap);
    SplitWrittenColonBlank(a, b);
    StripPadded(lead, name, gap);
    StripPadded(pad, FormatInt(v), trail);
    ParseFormatRoundTrip(v);
  }

  /** Whitespace is never ':'. */
  lemma PaddedNoColon(lead: string, name: string, gap: string)
    requires AllSpace(lead) && AllSpace(gap) && ':' !in name
    ensures ':' !in lead + name + gap
  {
    var a := lead + name + gap;
    forall i | 0 <= i < |a| ensures a[i] != ':' {
      if i < |lead| { assert a[i] == lead[i]; }
      else if i < |lead| + |name| { assert a[i] == name[i - |lead|]; }
      else { assert a[i] == gap[i - |lead| - |name|]; }
    }
  }

  lemma ParseStrippedFormat(v: int)
    ensures ParseInt(Strip(FormatInt(v))) == Some(v)
  {
    ParseFormatRoundTrip(v);
    StripUnpadded(FormatInt(v));
  }

  /** Splitting `a: b` at the first ": " gives `a` and `b` when `a` has no ':'. */
  lemma SplitWrittenColonBlank(a: string, b: string)
    requires ':' !in a
    ensures SplitFirst(a + ": " + b, ": ") == Some((a, b))
  {
    var e := a + ": " + b;
    assert OccursAt(e, ": ", |a|) by { assert e[|a|..|a| + 2] == ": "; }
    forall j | 0 <= j < |a| ensures !OccursAt(e, ": ", j) {
      assert e[j] == a[j];
    }
    FindFirst(e, ": ", |a|);
    assert e[..|a|] == a;
    assert e[|a| + 2..] == b;
  }

  /** The consumable parser is stricter than the equipment reader: an effect
      written without the blank after ':' gives equipment its bonus but is an
      invalid consumable. */
  lemma EffectFormatsDiffer()
    ensures Stats.ReadBonus("strength:5") == Some(("strength", 5))
    ensures ParseItemEffect("strength:5") == Err(InvalidItemType)
  {
    ReadBonusNoBlank();
    NoColonBlank();
  }

  lemma ReadBonusNoBlank()
    ensures Stats.ReadBonus("strength:5") == Some(("strength", 5))
  {
    StrengthNoColon();
    StrengthLower();
    StrengthUnpadded();
    StrengthNoBlankText();
    Stats.SplitWritten("strength", "5");
    assert ParseInt(Strip("5")) == Some(5) by {
      assert FormatInt(5) == "5";
      ParseStrippedFormat(5);
    }
  }

  /** "strength" is a plain stat name: no ':', lower-case and unpadded. */
  lemma StrengthNoColon()
    ensures ':' !in "strength"
  {
    var s := "strength";
    assert s == ['s', 't', 'r', 'e', 'n', 'g', 't', 'h'];
  }

  lemma StrengthLower()
    ensures Lower("strength") == "strength"
  {
    LowerUnchanged("strength");
  }

  lemma StrengthUnpadded()
    ensures Strip("strength") == "strength"
  {
    var s := "strength";
    assert s[0] == 's' && s[|s| - 1] == 'h';
    StripUnpadded(s);
  }

  lemma NoColonBlank()
    ensures forall j :: !OccursAt("strength:5", ": ", j)
  {
    var e := "strength:5";
    forall j ensures !OccursAt(e, ": ", j) {
      if 0 <= j && j + 2 <= |e| {
        assert e[j..j + 2][1] == e[j + 1];
      }
    }
  }

  /** The stat names a consumable may change. */
  predicate IsEffectStat(name: string) {
    || name == "health" || name == "max_health" || name == "strength" || name == "magic"
    || name == "defense" || name == "attack" || name == "gold" || name == "experience"
  }

  /** The health clamp of `apply_stat_effect`: cut at the maximum first, then
      raise to 0, as its two `if`s do in that order. */
  function ClampHealth(h: int, max: int): (r: int)
    ensures r >= 0
    ensures max >= 0 ==> r <= max
    ensures 0 <= h <= max ==> r == h
    ensures h > max >= 0 ==> r == max
    ensures h < 0 ==> r == 0
  {
    var capped := if h > max then max else h;
    if capped < 0 then 0 else capped
  }

  /** `apply_stat_effect`: an allowed stat grows by the value and no other field
      changes; health is then clamped into [0, max health] and max health is
      floored at 1. Any other stat name leaves the character as it is. */
  function ApplyStatEffect(c: Character, name: string, value: int): (r: Character)
    ensures !IsEffectStat(name) ==> r == c
    ensures name == "health" ==> r == c.(health := ClampHealth(c.health + value, c.maxHealth))
    ensures name == "max_health" ==>
      r == c.(maxHealth := if c.maxHealth + value < 1 then 1 else c.maxHealth + value)
    ensures name == "strength" ==> r == c.(strength := c.strength + value)
    ensures name == "magic" ==> r == c.(magic := c.magic + value)
    ensures name == "defense" ==> r == c.(defense := c.defense + value)
    ensures name == "attack" ==> r == c.(attack := c.attack + value)
    ensures name == "gold" ==> r == c.(gold := c.gold + value)
    ensures name == "experience" ==> r == c.(experience := c.experience + value)
    ensures r.inventory == c.inventory
  {
    if !IsEffectStat(name) then c
    else if name == "health" then c.(health := ClampHealth(c.health + value, c.maxHealth))
    else if name == "max_health" then
      var m := c.maxHealth + value;
      c.(maxHealth := if m < 1 then 1 else m)
    else if name == "strength" then c.(strength := c.strength + value)
    else if name == "magic" then c.(magic := c.magic + value)
    else if name == "defense" then c.(defense := c.defense + value)
    else if name == "attack" then c.(attack := c.attack + value)
    else if name == "gold" then c.(gold := c.gold + value)
    else c.(experience := c.experience + value)
  }

  /** A health effect keeps health in range, and so does every effect on a stat
      other than max health. A max-health effect keeps the maximum positive but
      leaves health where it was, which a negative value can put above the new
      maximum. */
  lemma StatEffectHealthRange(c: Character, name: string, value: int)
    requires Progression.HealthInRange(c)
    ensures name != "max_health" ==> Progression.HealthInRange(ApplyStatEffect(c, name, value))
    ensures name == "max_health" ==> ApplyStatEffect(c, name, value).maxHealth >= 1
    ensures name == "max_health" && value >= 0 ==> Progression.HealthInRange(ApplyStatEffect(c, name, value))
  {
  }

  /** A potion lowering max health from 100 to 50 leaves a character at full
      health with 100 health out of 50. */
  lemma MaxHealthDropExample(c: Character)
    requires c.health == 100 && c.maxHealth == 100
    ensures ApplyStatEffect(c, "max_health", -50).health == 100
    ensures ApplyStatEffect(c, "max_health", -50).maxHealth == 50
  {
  }

  /** `use_item`: the id must be carried, the item's type must be consumable
      (in any case), and its effect must parse; then the effect is applied and
      the first copy is removed, the rest keeping their order. Every refusal leaves the character unchanged. */
  function UseItem(c: Character, id: string, item: Item): (r: Result<Character>)
    ensures id !in c.inventory ==> r == Err(ItemNotFound)
    ensures id in c.inventory && Lower(item.itemType) != "consumable" ==> r == Err(InvalidItemType)
    ensures id in c.inventory && Lower(item.itemType) == "consumable" ==>
      (r.Err? <==> ParseItemEffect(item.effect).Err?)
    ensures r.Err? ==> r.error == ItemNotFound || r.error == InvalidItemType
    ensures r.Ok? ==>
      var (name, v) := ParseItemEffect(item.effect).value;
      var applied := ApplyStatEffect(c, name, v);
      && r.value == applied.(inventory := r.value.inventory)
      && r.value.inventory == c.inventory[..FirstIndex(c.inventory, id)] + c.inventory[FirstIndex(c.inventory, id) + 1..]
      && multiset(r.value.inventory) == multiset(c.inventory) - multiset{id}
      && |r.value.inventory| == |c.inventory| - 1
  {
    if id !in c.inventory then Err(ItemNotFound)
    else if Lower(item.itemType) != "consumable" then Err(InvalidItemType)
    else
      match ParseItemEffect(item.effect)
      case Err(e) => Err(e)
      case Ok((name, v)) => Ok(Consume(c, id, name, v))
  }

  /** The effect applied, then one copy of the item taken out of the list. */
  function Consume(c: Character, id: string, name: string, v: int): (r: Character)
    requires id in c.inventory
    ensures r == ApplyStatEffect(c, name, v).(inventory := r.inventory)
    ensures r.inventory == c.inventory[..FirstIndex(c.inventory, id)] + c.inventory[FirstIndex(c.inventory, id) + 1..]
    ensures multiset(r.inventory) == multiset(c.inventory) - multiset{id}
    ensures |r.inventory| == |c.inventory| - 1
  {
    RemoveItem(ApplyStatEffect(c, name, v), id).value
  }

  /** The two equipment slots. */
  datatype Slot = Weapon | Armor

  /** The item type a slot accepts. */
  function SlotType(s: Slot): string {
    match s
    case Weapon => "weapon"
    case Armor => "armor"
  }

  function SlotOf(c: Character, s: Slot): string {
    match s
    case Weapon => c.equippedWeapon
    case Armor => c.equippedArmor
  }

  function WithSlot(c: Character, s: Slot, id: string): (r: Character)
    ensures SlotOf(r, s) == id
    ensures r.inventory == c.inventory
    ensures r.baseHealth == c.baseHealth && r.baseStrength == c.baseStrength && r.baseMagic == c.baseMagic
    ensures s.Weapon? ==> r == c.(equippedWeapon := id)
    ensures s.Armor? ==> r == c.(equippedArmor := id)
  {
    match s
    case Weapon => c.(equippedWeapon := id)
    case Armor => c.(equippedArmor := id)
  }

  /** `equip_weapon` and `equip_armor`, with `table` the item table the stats
      are recomputed against. The id must be carried and the item must be of
      the slot's type; an item already in the slot goes back to the end of the
      list first, which fails with a full list. Then the slot takes the new id,
      its first copy leaves the list and the stats are recomputed. Every
      refusal happens before any change. */
  function Equip(c: Character, s: Slot, id: string, item: Item, table: ItemTable): (r: Result<Character>)
    ensures id !in c.inventory ==> r == Err(ItemNotFound)
    ensures id in c.inventory && Lower(item.itemType) != SlotType(s) ==> r == Err(InvalidItemType)
    ensures id in c.inventory && Lower(item.itemType) == SlotType(s) ==>
      (r.Err? <==> IsId(SlotOf(c, s)) && |c.inventory| >= MaxInventorySize)
    ensures r.Err? ==> r.error in {ItemNotFound, InvalidItemType, InventoryFull}
    ensures r.Ok? ==> r.value == Stats.Recalculate(Stow(c, s, id), table)
    ensures r.Ok? ==> SlotOf(r.value, s) == id
  {
    if id !in c.inventory then Err(ItemNotFound)
    else if Lower(item.itemType) != SlotType(s) then Err(InvalidItemType)
    else if IsId(SlotOf(c, s)) && |c.inventory| >= MaxInventorySize then Err(InventoryFull)
    else Ok(Stats.Recalculate(Stow(c, s, id), table))
  }

  /** The moves of `equip_*` before the recomputation: an item already in the
      slot goes to the end of the list, the slot takes `id` and the first copy
      of `id` leaves the list. */
  function Stow(c: Character, s: Slot, id: string): (r: Character)
    requires id in c.inventory
    ensures SlotOf(r, s) == id
    ensures r == WithSlot(c, s, id).(inventory := r.inventory)
    ensures IsId(SlotOf(c, s)) ==>
      multiset(r.inventory) == multiset(c.inventory) - multiset{id} + multiset{SlotOf(c, s)}
    ensures !IsId(SlotOf(c, s)) ==> multiset(r.inventory) == multiset(c.inventory) - multiset{id}
    ensures |r.inventory| == if IsId(SlotOf(c, s)) then |c.inventory| else |c.inventory| - 1
    ensures var inv := if IsId(SlotOf(c, s)) then c.inventory + [SlotOf(c, s)] else c.inventory;
      r.inventory == inv[..FirstIndex(inv, id)] + inv[FirstIndex(inv, id) + 1..]
  {
    var prev := SlotOf(c, s);
    var inv := if IsId(prev) then c.inventory + [prev] else c.inventory;
    assert id in inv;
    assert multiset(inv) == multiset(c.inventory) + (if IsId(prev) then multiset{prev} else multiset{});
    WithSlot(c, s, id).(inventory := RemoveFirst(inv, id))
  }

  /** `unequip_weapon` and `unequip_armor`: an empty or `"NONE"` slot returns
      nothing and changes nothing; a full list refuses; otherwise the item goes
      to the end of the list, the slot becomes `"NONE"`, the stats are
      recomputed against `table`, and the old id is returned. */
  function Unequip(c: Character, s: Slot, table: ItemTable): (r: Result<(Character, Option<string>)>)
    ensures !IsId(SlotOf(c, s)) ==> r == Ok((c, None))
    ensures IsId(SlotOf(c, s)) ==> (r.Err? <==> SpaceRemaining(c) == 0)
    ensures r.Err? ==> r.error == InventoryFull
    ensures IsId(SlotOf(c, s)) && r.Ok? ==>
      var (c', prev) := r.value;
      && prev == Some(SlotOf(c, s))
      && SlotOf(c', s) == NoneId
      && c'.inventory == c.inventory + [SlotOf(c, s)]
      && c' == Stats.Recalculate(WithSlot(c, s, NoneId).(inventory := c'.inventory), table)
  {
    var prev := SlotOf(c, s);
    if !IsId(prev) then Ok((c, None))
    else if SpaceRemaining(c) <= 0 then Err(InventoryFull)
    else
      var c1 := WithSlot(c, s, NoneId).(inventory := c.inventory + [prev]);
      Ok((Stats.Recalculate(c1, table), Some(prev)))
  }

  /** Recomputing leaves the inventory and the slots alone. */
  lemma RecalculateKeepsItems(c: Character, table: ItemTable)
    ensures Stats.Recalculate(c, table).inventory == c.inventory
    ensures Stats.Recalculate(c, table).equippedWeapon == c.equippedWeapon
    ensures Stats.Recalculate(c, table).equippedArmor == c.equippedArmor
  {
  }

  /** Equipping into an empty slot and unequipping again, both recomputed
      against the same table, gives back the same carried items (the id now at
      the end), the slot `"NONE"` and the derived stats of the character with
      that slot set to `"NONE"`. */
  lemma EquipUnequipRoundTrip(c: Character, s: Slot, id: string, item: Item, table: ItemTable)
    requires WithinCapacity(c) && !IsId(SlotOf(c, s)) && IsId(id)
    requires Equip(c, s, id, item, table).Ok?
    ensures Unequip(Equip(c, s, id, item, table).value, s, table).Ok?
    ensures var (u, prev) := Unequip(Equip(c, s, id, item, table).value, s, table).value;
      && prev == Some(id)
      && multiset(u.inventory) == multiset(c.inventory)
      && SlotOf(u, s) == NoneId
      && Stats.DerivedOf(u) == Stats.ExpectedDerived(WithSlot(c, s, NoneId), table)
  {
    var e := Equip(c, s, id, item, table).value;
    EquipIntoEmpty(c, s, id, item, table);
    UnequipAfterEquip(e, s, id, table);
    SameGearSameDerived(WithSlot(e, s, NoneId), WithSlot(c, s, NoneId), table);
  }

  /** Unequipping a slot that holds `id`, with room in the list, hands `id`
      back at the end of the list and leaves the slot `"NONE"`. */
  lemma UnequipAfterEquip(e: Character, s: Slot, id: string, table: ItemTable)
    requires SlotOf(e, s) == id && IsId(id) && |e.inventory| < MaxInventorySize
    ensures Unequip(e, s, table).Ok?
    ensures var (u, prev) := Unequip(e, s, table).value;
      && prev == Some(id)
      && u.inventory == e.inventory + [id]
      && SlotOf(u, s) == NoneId
      && Stats.DerivedOf(u) == Stats.ExpectedDerived(WithSlot(e, s, NoneId), table)
  {
    var c1 := WithSlot(e, s, NoneId).(inventory := e.inventory + [id]);
    SameGearSameDerived(c1, WithSlot(e, s, NoneId), table);
  }

  /** Equipping into an empty slot takes one copy of the id out of the list
      and changes neither the base stats nor the other slot. */
  lemma EquipIntoEmpty(c: Character, s: Slot, id: string, item: Item, table: ItemTable)
    requires WithinCapacity(c) && !IsId(SlotOf(c, s))
    requires Equip(c, s, id, item, table).Ok?
    ensures var e := Equip(c, s, id, item, table).value;
      && SlotOf(e, s) == id && |e.inventory| < MaxInventorySize
      && multiset(e.inventory) == multiset(c.inventory) - multiset{id}
      && e.baseHealth == c.baseHealth && e.baseStrength == c.baseStrength && e.baseMagic == c.baseMagic
      && WithSlot(e, s, NoneId).equippedWeapon == WithSlot(c, s, NoneId).equippedWeapon
      && WithSlot(e, s, NoneId).equippedArmor == WithSlot(c, s, NoneId).equippedArmor
  {
    var st := Stow(c, s, id);
    RecalculateKeepsItems(st, table);
  }

  /** The reference derived stats depend only on the base stats and the slots. */
  lemma SameGearSameDerived(a: Character, b: Character, table: ItemTable)
    requires a.baseHealth == b.baseHealth && a.baseStrength == b.baseStrength && a.baseMagic == b.baseMagic
    requires a.equippedWeapon == b.equippedWeapon && a.equippedArmor == b.equippedArmor
    ensures Stats.ExpectedDerived(a, table) == Stats.ExpectedDerived(b, table)
  {
  }

  /** Swapping one weapon for another keeps the number of carried items. */
  lemma EquipSwapKeepsCount(c: Character, s: Slot, id: string, item: Item, table: ItemTable)
    requires IsId(SlotOf(c, s))
    requires Equip(c, s, id, item, table).Ok?
    ensures |Equip(c, s, id, item, table).value.inventory| == |c.inventory|
    ensures SlotOf(c, s) in Equip(c, s, id, item, table).value.inventory
  {
    var r := Equip(c, s, id, item, table).value;
    assert SlotOf(c, s) in multiset(r.inventory);
  }

  /** The recomputation `equip_*` performs as written: the item record itself
      is passed as the table, so no item id is found in it. */
  function EquipAsWritten(c: Character, s: Slot, id: string, item: Item): Result<Character> {
    Equip(c, s, id, item, map[])
  }

  /** The recomputation `unequip_*` performs as written, against `{}`. */
  function UnequipAsWritten(c: Character, s: Slot): Result<(Character, Option<string>)> {
    Unequip(c, s, map[])
  }

  /** As written, equipping never adds the new item's bonus, nor keeps the
      other slot's: the derived stats are the bare base values. */
  lemma EquipAsWrittenDropsBonus(c: Character, s: Slot, id: string, item: Item)
    requires EquipAsWritten(c, s, id, item).Ok?
    ensures Stats.DerivedOf(EquipAsWritten(c, s, id, item).value)
         == Stats.Derived(c.baseHealth, c.baseStrength, c.baseMagic, 0, 0)
  {
  }

  /** A Warrior equipping a sword of "strength: 5" stays at strength 15 as
      written, and reaches 20 when the stats are recomputed against a table
      that holds the sword. */
  lemma SwordExample(c: Character, table: ItemTable)
    requires c.baseStrength == 15 && c.equippedWeapon == NoneId && c.equippedArmor == NoneId
    requires NoneId !in table && "sword" in table && table["sword"].effect == "strength: 5"
    requires "sword" in c.inventory && table["sword"].itemType == "weapon"
    ensures EquipAsWritten(c, Weapon, "sword", table["sword"]).Ok?
    ensures EquipAsWritten(c, Weapon, "sword", table["sword"]).value.strength == 15
    ensures Equip(c, Weapon, "sword", table["sword"], table).Ok?
    ensures Equip(c, Weapon, "sword", table["sword"], table).value.strength == 20
  {
    WeaponType();
    SwordAsWritten(c, table["sword"]);
    SwordCorrected(c, table);
  }

  lemma WeaponType()
    ensures Lower("weapon") == "weapon"
  {
    LowerUnchanged("weapon");
  }

  lemma SwordAsWritten(c: Character, sword: Item)
    requires c.baseStrength == 15 && c.equippedWeapon == NoneId
    requires "sword" in c.inventory && Lower(sword.itemType) == "weapon"
    ensures EquipAsWritten(c, Weapon, "sword", sword).Ok?
    ensures EquipAsWritten(c, Weapon, "sword", sword).value.strength == 15
  {
    EquipAsWrittenDropsBonus(c, Weapon, "sword", sword);
  }

  lemma SwordCorrected(c: Character, table: ItemTable)
    requires c.baseStrength == 15 && c.equippedWeapon == NoneId && c.equippedArmor == NoneId
    requires NoneId !in table && "sword" in table && table["sword"].effect == "strength: 5"
    requires "sword" in c.inventory && Lower(table["sword"].itemType) == "weapon"
    ensures Equip(c, Weapon, "sword", table["sword"], table).Ok?
    ensures Equip(c, Weapon, "sword", table["sword"], table).value.strength == 20
  {
    SwordEffect(table);
    var st := Stow(c, Weapon, "sword");
    assert st.equippedWeapon == "sword" && st.equippedArmor == NoneId && st.baseStrength == 15;
    assert Stats.ExpectedDerived(st, table).strength == 20;
  }

  /** The sword's effect reads as a bonus of 5 to strength. */
  lemma SwordEffect(table: ItemTable)
    requires "sword" in table && table["sword"].effect == "strength: 5"
    ensures Stats.SlotEffect("sword", table) == Some(("strength", 5))
  {
    StrengthNoColon();
    StrengthLower();
    StrengthUnpadded();
    StrengthEffectText();
    Stats.ReadBonusOfWritten("strength", 5);
  }

  lemma StrengthNoBlankText()
    ensures "strength:5" == "strength" + ":" + "5"
  {
    var e := "strength" + ":" + "5";
    assert |e| == 10;
    forall i | 0 <= i < 10 ensures e[i] == "strength:5"[i] {
    }
  }

  lemma StrengthEffectText()
    ensures "strength: 5" == "strength" + ": " + FormatInt(5)
  {
    assert FormatInt(5) == "5";
    var e := "strength" + ": " + "5";
    assert |e| == 11;
    forall i | 0 <= i < 11 ensures e[i] == "strength: 5"[i] {
    }
  }

  /** Recomputing against the full table, equipping gives exactly the derived
      stats the base values and both slots' effects call for. */
  lemma EquipAppliesBonus(c: Character, s: Slot, id: string, item: Item, table: ItemTable)
    requires Equip(c, s, id, item, table).Ok?
    ensures Stats.DerivedOf(Equip(c, s, id, item, table).value)
         == Stats.ExpectedDerived(WithSlot(c, s, id), table)
  {
  }

  /** As written, unequipping one slot also drops the other slot's bonus. */
  lemma UnequipAsWrittenDropsOtherBonus(c: Character, s: Slot)
    requires IsId(SlotOf(c, s)) && UnequipAsWritten(c, s).Ok?
    ensures Stats.DerivedOf(UnequipAsWritten(c, s).value.0)
         == Stats.Derived(c.baseHealth, c.baseStrength, c.baseMagic, 0, 0)
  {
  }

  /** Recomputing against the full table, unequipping the weapon keeps the
      armour's bonus. */
  lemma UnequipKeepsOtherBonus(c: Character, table: ItemTable)
    requires IsId(c.equippedWeapon) && NoneId !in table
    requires Unequip(c, Weapon, table).Ok?
    ensures Stats.DerivedOf(Unequip(c, Weapon, table).value.0)
         == Stats.Plus(Stats.Derived(c.baseHealth, c.baseStrength, c.baseMagic, 0, 0),
                       Stats.BonusOf(Stats.SlotEffect(c.equippedArmor, table)))
  {
  }

  /** The item's COST entry read as an integer. */
  function Cost(item: Item): Option<int> {
    ParseInt(item.cost)
  }

  /** `purchase_item`: an unreadable cost is an invalid item; then a full list
      and then too little gold refuse, all before any change. Otherwise the
      cost is paid and the id goes at the end of the list. */
  function Purchase(c: Character, id: string, item: Item): (r: Result<Character>)
    ensures Cost(item).None? ==> r == Err(InvalidItemType)
    ensures Cost(item).Some? && SpaceRemaining(c) == 0 ==> r == Err(InventoryFull)
    ensures Cost(item).Some? && SpaceRemaining(c) > 0 && c.gold < Cost(item).value ==>
      r == Err(InsufficientResources)
    ensures r.Ok? <==> Cost(item).Some? && SpaceRemaining(c) > 0 && c.gold >= Cost(item).value
    ensures r.Ok? ==>
      && r.value.gold == c.gold - Cost(item).value
      && r.value.inventory == c.inventory + [id]
      && r.value == c.(gold := r.value.gold, inventory := r.value.inventory)
  {
    match Cost(item)
    case None => Err(InvalidItemType)
    case Some(cost) =>
      if SpaceRemaining(c) <= 0 then Err(InventoryFull)
      else if c.gold < cost then Err(InsufficientResources)
      else
        var c1 := Progression.AddGold(c, -cost).value.0;
        Ok(c1.(inventory := c1.inventory + [id]))
  }

  /** `sell_item`: the id must be carried and the cost must read as an
      integer; then the first copy leaves the list and half the cost, rounded down,
      is credited and returned. A credit that would leave a negative balance is
      refused. */
  function Sell(c: Character, id: string, item: Item): (r: Result<(Character, int)>)
    ensures id !in c.inventory ==> r == Err(ItemNotFound)
    ensures id in c.inventory && Cost(item).None? ==> r == Err(InvalidItemType)
    ensures id in c.inventory && Cost(item).Some? ==>
      var price := Cost(item).value / 2;
      && 2 * price <= Cost(item).value < 2 * price + 2
      && (r.Err? <==> c.gold + price < 0)
      && (r.Ok? ==>
            && r.value.1 == price && r.value.0.gold == c.gold + price
            && r.value.0.inventory == c.inventory[..FirstIndex(c.inventory, id)] + c.inventory[FirstIndex(c.inventory, id) + 1..]
            && multiset(r.value.0.inventory) == multiset(c.inventory) - multiset{id}
            && r.value.0 == c.(gold := r.value.0.gold, inventory := r.value.0.inventory))
  {
    if id !in c.inventory then Err(ItemNotFound)
    else
      match Cost(item)
      case None => Err(InvalidItemType)
      case Some(cost) =>
        var price := cost / 2;
        var c1 := RemoveItem(c, id).value;
        match Progression.AddGold(c1, price)
        case Err(e) => Err(e)
        case Ok((c2, _)) => Ok((c2, price))
  }

  /** Buying an item of non-negative cost and selling it straight back costs
      the buyer the cost less half of it and leaves the same items carried. */
  lemma PurchaseThenSell(c: Character, id: string, item: Item)
    requires Purchase(c, id, item).Ok? && Cost(item).value >= 0
    ensures Sell(Purchase(c, id, item).value, id, item).Ok?
    ensures var (s, price) := Sell(Purchase(c, id, item).value, id, item).value;
      && price == Cost(item).value / 2
      && s.gold == c.gold - Cost(item).value + price
      && multiset(s.inventory) == multiset(c.inventory)
  {
    var p := Purchase(c, id, item).value;
    assert id in p.inventory;
    assert multiset(p.inventory) == multiset(c.inventory) + multiset{id};
  }

  /** Every inventory operation keeps the carried list within capacity. */
  lemma OperationsKeepCapacity(c: Character, id: string, item: Item, s: Slot, table: ItemTable)
    requires WithinCapacity(c)
    ensures AddItem(c, id).Ok? ==> WithinCapacity(AddItem(c, id).value)
    ensures RemoveItem(c, id).Ok? ==> WithinCapacity(RemoveItem(c, id).value)
    ensures UseItem(c, id, item).Ok? ==> WithinCapacity(UseItem(c, id, item).value)
    ensures Equip(c, s, id, item, table).Ok? ==> WithinCapacity(Equip(c, s, id, item, table).value)
    ensures Unequip(c, s, table).Ok? ==> WithinCapacity(Unequip(c, s, table).value.0)
    ensures Purchase(c, id, item).Ok? ==> WithinCapacity(Purchase(c, id, item).value)
    ensures Sell(c, id, item).Ok? ==> WithinCapacity(Sell(c, id, item).value.0)
  {
    ListOpsKeepCapacity(c, id, item);
    GearOpsKeepCapacity(c, id, item, s, table);
    ShopOpsKeepCapacity(c, id, item);
  }

  lemma ListOpsKeepCapacity(c: Character, id: string, item: Item)
    requires WithinCapacity(c)
    ensures AddItem(c, id).Ok? ==> WithinCapacity(AddItem(c, id).value)
    ensures RemoveItem(c, id).Ok? ==> WithinCapacity(RemoveItem(c, id).value)
    ensures UseItem(c, id, item).Ok? ==> WithinCapacity(UseItem(c, id, item).value)
  {
  }

  lemma GearOpsKeepCapacity(c: Character, id: string, item: Item, s: Slot, table: ItemTable)
    requires WithinCapacity(c)
    ensures Equip(c, s, id, item, table).Ok? ==> WithinCapacity(Equip(c, s, id, item, table).value)
    ensures Unequip(c, s, table).Ok? ==> WithinCapacity(Unequip(c, s, table).value.0)
  {
    if Equip(c, s, id, item, table).Ok? {
      RecalculateKeepsItems(Stow(c, s, id), table);
    }
    if Unequip(c, s, table).Ok? && IsId(SlotOf(c, s)) {
      var u := WithSlot(c, s, NoneId).(inventory := c.inventory + [SlotOf(c, s)]);
      RecalculateKeepsItems(u, table);
    }
  }

  lemma ShopOpsKeepCapacity(c: Character, id: string, item: Item)
    requires WithinCapacity(c)
    ensures Purchase(c, id, item).Ok? ==> WithinCapacity(Purchase(c, id, item).value)
    ensures Sell(c, id, item).Ok? ==> WithinCapacity(Sell(c, id, item).value.0)
  {
    if Sell(c, id, item).Ok? {
      assert id in c.inventory;
      var r := Sell(c, id, item).value.0;
      assert |multiset(r.inventory)| == |multiset(c.inventory)| - 1;
    }
  }
}

=== FILE: progression.dfy ===
/** Character creation and the progression rules of character_manager.py:
    experience and level-ups, gold, healing, death and revival. */
module Progression {
  import opened Errors
  import opened Entities

  /** Starting health, strength and magic of a class. */
  datatype ClassStats = ClassStats(health: int, strength: int, magic: int)

  /** The fixed class table: Warrior, Mage, Rogue and Cleric. */
  function ClassBaseStats(cls: string): Option<ClassStats> {
    if cls == "Warrior" then Some(ClassStats(120, 15, 5))
    else if cls == "Mage" then Some(ClassStats(80, 8, 20))
    else if cls == "Rogue" then Some(ClassStats(90, 12, 10))
    else if cls == "Cleric" then Some(ClassStats(100, 10, 15))
    else None
  }

  predicate IsValidClass(cls: string) {
    cls == "Warrior" || cls == "Mage" || cls == "Rogue" || cls == "Cleric"
  }

  /** The experience needed to advance from `level` to the next level. */
  function Threshold(level: int): int {
    level * 100
  }

  /** The invariants a created character has and the progression operations keep:
      a positive level, experience below the next threshold, no debt, and health
      between zero and a positive maximum. */
  predicate Valid(c: Character) {
    && c.level >= 1
    && 0 <= c.experience < Threshold(c.level)
    && c.gold >= 0
    && c.baseHealth >= 1
    && 1 <= c.maxHealth
    && 0 <= c.health <= c.maxHealth
  }

  /** Health lies between zero and the current maximum. */
  predicate HealthInRange(c: Character) {
    0 <= c.health <= c.maxHealth
  }

  /** Creates a level-1 character of a known class, with full health, 100 gold,
      no items, no equipment and no quests; any other class name is rejected. */
  function CreateCharacter(name: string, cls: string): (r: Result<Character>)
    ensures r.Err? <==> !IsValidClass(cls)
    ensures r.Err? ==> r.error == InvalidCharacterClass
    ensures r.Ok? ==>
      var c := r.value;
      && c.name == name && c.charClass == cls
      && c.level == 1 && c.experience == 0 && c.gold == 100
      && c.health == c.maxHealth == c.baseHealth == ClassBaseStats(cls).value.health
      && c.strength == c.baseStrength == ClassBaseStats(cls).value.strength
      && c.magic == c.baseMagic == ClassBaseStats(cls).value.magic
      && c.defense == 0 && c.attack == 0
      && c.inventory == [] && c.activeQuests == [] && c.completedQuests == []
      && c.equippedWeapon == NoneId && c.equippedArmor == NoneId
  {
    match ClassBaseStats(cls)
    case None => Err(InvalidCharacterClass)
    case Some(st) =>
      Ok(Character(name, cls, 1, 0, 100, st.health, st.strength, st.magic,
                   st.health, st.health, st.strength, st.magic, 0, 0,
                   [], NoneId, NoneId, [], []))
  }

  /** Every character creation yields a character satisfying the invariants. */
  lemma CreatedIsValid(name: string, cls: string)
    requires CreateCharacter(name, cls).Ok?
    ensures Valid(CreateCharacter(name, cls).value)
  {
  }

  /** Experience consumed by advancing from level `lo` to level `hi`: the sum of
      the thresholds of the levels passed through. */
  function XpBetween(lo: int, hi: int): int
    decreases hi - lo
  {
    if lo >= hi then 0 else Threshold(lo) + XpBetween(lo + 1, hi)
  }

  /** The level-up loop of both `gain_experience` variants, on the fields it
      always changes: while the stored experience reaches the threshold of the
      current level, the threshold is consumed, the level rises by one and the
      base stats grow by 10/2/2. It stops with experience below the threshold
      of the final level, every experience point accounted for. */
  function LevelUpLoop(c: Character): (r: Character)
    ensures r.level >= c.level
    ensures r.experience < Threshold(r.level)
    ensures c.experience == r.experience + XpBetween(c.level, r.level)
    ensures r.baseHealth == c.baseHealth + 10 * (r.level - c.level)
    ensures r.baseStrength == c.baseStrength + 2 * (r.level - c.level)
    ensures r.baseMagic == c.baseMagic + 2 * (r.level - c.level)
    ensures r == c.(level := r.level, experience := r.experience, baseHealth := r.baseHealth,
                    baseStrength := r.baseStrength, baseMagic := r.baseMagic)
    decreases if c.level < 1 then 1 - c.level else 0, c.experience
  {
    if c.experience >= Threshold(c.level) then LevelUpLoop(LevelStep(c)) else c
  }

  /** `gain_experience` of character_manager.py. A dead character is refused
      unchanged. Otherwise the amount is added and the level-up loop runs; the
      result says whether at least one level was gained. With a level-up the
      current max health, strength and magic become the new base values and
      health is refilled; without one only the experience changes. */
  function GainExperience(c: Character, amount: int): (r: Result<(Character, bool)>)
    ensures c.health <= 0 <==> r.Err?
    ensures r.Err? ==> r.error == CharacterDead
    ensures r.Ok? ==>
      var (c', leveled) := r.value;
      && c'.level >= c.level
      && c'.experience < Threshold(c'.level)
      && c.experience + amount == c'.experience + XpBetween(c.level, c'.level)
      && c'.baseHealth == c.baseHealth + 10 * (c'.level - c.level)
      && c'.baseStrength == c.baseStrength + 2 * (c'.level - c.level)
      && c'.baseMagic == c.baseMagic + 2 * (c'.level - c.level)
      && (leveled <==> c'.level > c.level)
      && (leveled ==> c'.maxHealth == c'.baseHealth && c'.health == c'.maxHealth
                      && c'.strength == c'.baseStrength && c'.magic == c'.baseMagic)
      && (!leveled ==> c' == c.(experience := c.experience + amount))
      && c' == c.(level := c'.level, experience := c'.experience, baseHealth := c'.baseHealth,
                  baseStrength := c'.baseStrength, baseMagic := c'.baseMagic,
                  maxHealth := c'.maxHealth, strength := c'.strength, magic := c'.magic,
                  health := c'.health)
  {
    if IsDead(c) then Err(CharacterDead)
    else
      var r := LevelUpLoop(c.(experience := c.experience + amount));
      if r.level > c.level then
        Ok((r.(maxHealth := r.baseHealth, strength := r.baseStrength, magic := r.baseMagic,
               health := r.baseHealth), true))
      else Ok((r, false))
  }

  /** Running the level-up loop, adding more experience and running it again
      ends where a single run over the whole experience ends: experience granted
      in two calls levels a character exactly as one call with the sum does. */
  lemma {:induction false} LevelUpLoopSplit(c: Character, b: int)
    requires c.level >= 1 && c.experience >= 0 && b >= 0
    ensures LevelUpLoop(WithMoreXp(LevelUpLoop(c), b)) == LevelUpLoop(WithMoreXp(c, b))
    decreases c.experience
  {
    if c.experience >= Threshold(c.level) {
      var next := LevelStep(c);
      assert LevelUpLoop(c) == LevelUpLoop(next);
      LevelUpLoopSplit(next, b);
      assert LevelStep(WithMoreXp(c, b)) == WithMoreXp(next, b);
      assert LevelUpLoop(WithMoreXp(c, b)) == LevelUpLoop(WithMoreXp(next, b));
    }
  }

  /** The progression fields the level-up loop reads and writes. */
  function Progress(c: Character): (int, int, int, int, int) {
    (c.level, c.experience, c.baseHealth, c.baseStrength, c.baseMagic)
  }

  /** The loop's outcome on its own fields depends on nothing else. */
  lemma {:induction false} LevelUpLoopLocal(c: Character, d: Character)
    requires Progress(c) == Progress(d) && c.level >= 1
    ensures Progress(LevelUpLoop(c)) == Progress(LevelUpLoop(d))
    decreases c.experience
  {
    if c.experience >= Threshold(c.level) {
      LevelUpLoopLocal(LevelStep(c), LevelStep(d));
    }
  }

  /** Experience granted in two calls levels a living, valid character exactly
      as one call granting the sum. */
  lemma GainExperienceTwice(c: Character, a: int, b: int)
    requires Valid(c) && !IsDead(c) && a >= 0 && b >= 0
    ensures GainExperience(c, a).Ok?
    ensures GainExperience(GainExperience(c, a).value.0, b).Ok?
    ensures Progress(GainExperience(GainExperience(c, a).value.0, b).value.0)
         == Progress(GainExperience(c, a + b).value.0)
  {
    GainProgress(c, a);
    var c1 := GainExperience(c, a).value.0;
    GainProgress(c1, b);
    GainProgress(c, a + b);
    var ca := WithMoreXp(c, a);
    var l1 := LevelUpLoop(ca);
    assert Progress(c1) == Progress(l1);
    var x, y := WithMoreXp(c1, b), WithMoreXp(l1, b);
    ProgressWithMoreXp(c1, l1, b);
    LevelUpLoopLocal(x, y);
    LevelUpLoopSplit(ca, b);
    WithMoreXpTwice(c, a, b);
  }

  lemma ProgressWithMoreXp(c: Character, d: Character, b: int)
    requires Progress(c) == Progress(d)
    ensures Progress(WithMoreXp(c, b)) == Progress(WithMoreXp(d, b))
  {
  }

  lemma WithMoreXpTwice(c: Character, a: int, b: int)
    ensures WithMoreXp(WithMoreXp(c, a), b) == WithMoreXp(c, a + b)
  {
  }

  /** A grant to a living character leaves it alive, and its progression fields
      are those the level-up loop computes from the raised experience. */
  lemma GainProgress(c: Character, amount: int)
    requires !IsDead(c) && c.baseHealth >= 1
    ensures GainExperience(c, amount).Ok?
    ensures var c' := GainExperience(c, amount).value.0;
      && !IsDead(c') && c'.baseHealth >= 1
      && Progress(c') == Progress(LevelUpLoop(WithMoreXp(c, amount)))
  {
  }

  /** `c` with `b` more experience stored. */
  function WithMoreXp(c: Character, b: int): Character {
    c.(experience := c.experience + b)
  }

  /** One pass of the level-up loop's body. */
  function LevelStep(c: Character): Character {
    c.(experience := c.experience - Threshold(c.level), level := c.level + 1,
       baseHealth := c.baseHealth + 10, baseStrength := c.baseStrength + 2,
       baseMagic := c.baseMagic + 2)
  }

  /** Granting a non-negative amount of experience to a valid character keeps it
      valid, and the level and base stats never decrease. */
  lemma GainExperienceKeepsValid(c: Character, amount: int)
    requires Valid(c) && !IsDead(c) && amount >= 0
    ensures GainExperience(c, amount).Ok?
    ensures var c' := GainExperience(c, amount).value.0;
      Valid(c') && c'.level >= c.level && c'.baseHealth >= c.baseHealth
      && c'.baseStrength >= c.baseStrength && c'.baseMagic >= c.baseMagic
  {
    var c' := GainExperience(c, amount).value.0;
    assert c'.experience >= 0 by {
      var r := LevelUpLoop(c.(experience := c.experience + amount));
      LevelUpLoopNonNegative(c.(experience := c.experience + amount));
    }
  }

  /** With a non-negative start the loop never drives experience negative. */
  lemma {:induction false} LevelUpLoopNonNegative(c: Character)
    requires c.level >= 1 && c.experience >= 0
    ensures LevelUpLoop(c).experience >= 0
    decreases c.experience
  {
    if c.experience >= Threshold(c.level) {
      LevelUpLoopNonNegative(c.(experience := c.experience - Threshold(c.level),
                                level := c.level + 1,
                                baseHealth := c.baseHealth + 10,
                                baseStrength := c.baseStrength + 2,
                                baseMagic := c.baseMagic + 2));
    }
  }

  /** A level-1 character granted 250 experience in one call reaches level 2
      with 150 left over: the threshold scales with the level. */
  lemma TwoHundredFiftyXpExample(c: Character)
    requires c.level == 1 && c.experience == 0 && c.health > 0
    ensures GainExperience(c, 250).Ok?
    ensures GainExperience(c, 250).value.0.level == 2
    ensures GainExperience(c, 250).value.0.experience == 150
  {
    var c1 := c.(experience := 250);
    var c2 := c1.(experience := 150, level := 2, baseHealth := c.baseHealth + 10,
                  baseStrength := c.baseStrength + 2, baseMagic := c.baseMagic + 2);
    assert LevelUpLoop(c2) == c2;
    assert LevelUpLoop(c1) == LevelUpLoop(c2);
  }

  /** `add_gold`: refuses, with no change, a transaction that would leave a
      negative balance; otherwise applies it and returns the new balance. */
  function AddGold(c: Character, amount: int): (r: Result<(Character, int)>)
    ensures r.Err? <==> c.gold + amount < 0
    ensures r.Err? ==> r.error == NegativeGold
    ensures r.Ok? ==> r.value.1 == c.gold + amount >= 0 && r.value.0 == c.(gold := r.value.1)
  {
    var total := c.gold + amount;
    if total < 0 then Err(NegativeGold) else Ok((c.(gold := total), total))
  }

  /** Adding and then removing the same amount restores the character. */
  lemma AddGoldRoundTrip(c: Character, amount: int)
    requires c.gold >= 0
    requires AddGold(c, amount).Ok?
    ensures AddGold(AddGold(c, amount).value.0, -amount) == Ok((c, c.gold))
  {
  }

  /** `heal_character`: no change and 0 when health is already at the maximum
      or the amount is not positive; otherwise health rises by the amount, cut
      off at the maximum, and the gain is returned. */
  function Heal(c: Character, amount: int): (r: (Character, int))
    ensures c.health >= c.maxHealth || amount <= 0 ==> r == (c, 0)
    ensures c.health < c.maxHealth && amount > 0 ==>
      && 0 < r.1 <= amount && r.1 <= c.maxHealth - c.health
      && (r.1 == amount || r.0.health == c.maxHealth)
      && r.0 == c.(health := c.health + r.1)
  {
    if c.health >= c.maxHealth || amount <= 0 then (c, 0)
    else
      var space := c.maxHealth - c.health;
      var actual := if amount > space then space else amount;
      (c.(health := c.health + actual), actual)
  }

  /** Two heals in a row restore as much as one heal by the sum. */
  lemma HealAdditive(c: Character, a: int, b: int)
    requires a > 0 && b > 0 && c.health <= c.maxHealth
    ensures Heal(Heal(c, a).0, b).0 == Heal(c, a + b).0
    ensures Heal(c, a).1 + Heal(Heal(c, a).0, b).1 == Heal(c, a + b).1
  {
  }

  /** Healing keeps health within [0, max_health]. */
  lemma HealKeepsRange(c: Character, amount: int)
    requires HealthInRange(c)
    ensures HealthInRange(Heal(c, amount).0)
  {
  }

  /** `is_character_dead`. */
  predicate IsDead(c: Character) {
    c.health <= 0
  }

  /** `revive_character`: a living character is left alone and `false` is
      returned; a dead one gets half its max health back, at least 1. */
  function Revive(c: Character): (r: (Character, bool))
    ensures !IsDead(c) ==> r == (c, false)
    ensures IsDead(c) ==> r.1 && r.0 == c.(health := r.0.health)
    ensures IsDead(c) ==> r.0.health >= 1 && (r.0.health == 1 || r.0.health == c.maxHealth / 2)
    ensures IsDead(c) ==> r.0.health >= c.maxHealth / 2
  {
    if !IsDead(c) then (c, false)
    else
      var half := c.maxHealth / 2;
      (c.(health := if half < 1 then 1 else half), true)
  }

  /** A revived character is alive, reviving it again changes nothing, and with
      a positive maximum not exceeded beforehand its health is in range. */
  lemma ReviveRestoresLife(c: Character)
    ensures !IsDead(Revive(c).0)
    ensures Revive(Revive(c).0) == (Revive(c).0, false)
    ensures 1 <= c.maxHealth && c.health <= c.maxHealth ==> HealthInRange(Revive(c).0)
  {
  }

  /** A character with max health 1 is revived to 1 health, never 0. */
  lemma ReviveFloorExample(c: Character)
    requires c.maxHealth == 1 && c.health == 0
    ensures Revive(c).0.health == 1
  {
  }
}

=== FILE: quests.dfy ===
/** The quest engine of quest_handler.py: accepting, completing and abandoning
    quests over a character's two quest lists, the eligibility test, and the
    queries over the quest table. */
module Quests {
  import opened Errors
  import opened Entities
  import opened Sequences

  /** The quest table: the quest ids in the order the table lists them, and
      the definition of each. */
  datatype QuestTable = QuestTable(order: seq<string>, defs: map<string, Quest>)

  /** The order lists each defined id exactly once, as a dict's keys do. */
  predicate WellFormed(t: QuestTable) {
    && Distinct(t.order)
    && (forall id :: id in t.order ==> id in t.defs)
    && (forall id :: id in t.defs ==> id in t.order)
  }

  /** What completing a quest earns. */
  datatype Rewards = Rewards(xp: int, gold: int)

  /** Marker the prerequisite walk puts in front of a link to a missing quest. */
  const InvalidPrerequisite: string := "INVALID_PREREQUISITE"

  /** `is_quest_completed`. */
  predicate IsCompleted(c: Character, id: string) {
    id in c.completedQuests
  }

  /** `is_quest_active`. */
  predicate IsActive(c: Character, id: string) {
    id in c.activeQuests
  }

  /** The quest log invariant: no quest is active twice or both active and
      completed. */
  predicate LogValid(c: Character) {
    && Distinct(c.activeQuests)
    && (forall id :: id in c.activeQuests ==> id !in c.completedQuests)
  }

  /** The prerequisite of `q` is met: it names no quest, or a completed one. */
  predicate PrerequisiteMet(c: Character, q: Quest) {
    !IsId(q.prerequisite) || IsCompleted(c, q.prerequisite)
  }

  /** `accept_quest`: an unknown id, a completed quest, a level below the
      requirement and an unmet prerequisite are refused, in that order; a quest
      already active is accepted again without change. Otherwise the id is
      appended to the active list. Nothing else changes. */
  function AcceptQuest(c: Character, id: string, t: QuestTable): (r: Result<Character>)
    ensures id !in t.defs ==> r == Err(QuestNotFound)
    ensures id in t.defs && IsCompleted(c, id) ==> r == Err(QuestAlreadyCompleted)
    ensures id in t.defs && !IsCompleted(c, id) && IsActive(c, id) ==> r == Ok(c)
    ensures id in t.defs && !IsCompleted(c, id) && !IsActive(c, id) ==>
      && (c.level < t.defs[id].requiredLevel ==> r == Err(InsufficientLevel))
      && (c.level >= t.defs[id].requiredLevel && !PrerequisiteMet(c, t.defs[id]) ==>
            r == Err(QuestRequirementsNotMet))
      && (c.level >= t.defs[id].requiredLevel && PrerequisiteMet(c, t.defs[id]) ==>
            r == Ok(c.(activeQuests := c.activeQuests + [id])))
  {
    if id !in t.defs then Err(QuestNotFound)
    else
      var q := t.defs[id];
      if IsCompleted(c, id) then Err(QuestAlreadyCompleted)
      else if IsActive(c, id) then Ok(c)
      else if c.level < q.requiredLevel then Err(InsufficientLevel)
      else if IsId(q.prerequisite) && !IsCompleted(c, q.prerequisite) then Err(QuestRequirementsNotMet)
      else Ok(c.(activeQuests := c.activeQuests + [id]))
  }

  /** `complete_quest`: an unknown id and a quest that is not active are
      refused. Otherwise the first occurrence leaves the active list, the id is
      appended to the completed list, and the quest's rewards are returned for
      the caller to grant. Nothing else changes. */
  function CompleteQuest(c: Character, id: string, t: QuestTable): (r: Result<(Character, Rewards)>)
    ensures id !in t.defs ==> r == Err(QuestNotFound)
    ensures id in t.defs && !IsActive(c, id) ==> r == Err(QuestNotActive)
    ensures r.Ok? <==> id in t.defs && IsActive(c, id)
    ensures r.Ok? ==>
      var (c', rw) := r.value;
      && rw == Rewards(t.defs[id].rewardXp, t.defs[id].rewardGold)
      && c'.activeQuests == c.activeQuests[..FirstIndex(c.activeQuests, id)]
                            + c.activeQuests[FirstIndex(c.activeQuests, id) + 1..]
      && multiset(c'.activeQuests) == multiset(c.activeQuests) - multiset{id}
      && |c'.activeQuests| == |c.activeQuests| - 1
      && c'.completedQuests == c.completedQuests + [id]
      && c' == c.(activeQuests := c'.activeQuests, completedQuests := c'.completedQuests)
  {
    if id !in t.defs then Err(QuestNotFound)
    else if !IsActive(c, id) then Err(QuestNotActive)
    else
      var q := t.defs[id];
      Ok((c.(activeQuests := RemoveFirst(c.activeQuests, id),
             completedQuests := c.completedQuests + [id]),
          Rewards(q.rewardXp, q.rewardGold)))
  }

  /** `abandon_quest`: a quest that is not active is refused; otherwise its
      first occurrence leaves the active list and nothing else changes. */
  function AbandonQuest(c: Character, id: string): (r: Result<Character>)
    ensures r.Err? <==> !IsActive(c, id)
    ensures r.Err? ==> r.error == QuestNotActive
    ensures r.Ok? ==>
      && r.value.activeQuests == c.activeQuests[..FirstIndex(c.activeQuests, id)]
                                 + c.activeQuests[FirstIndex(c.activeQuests, id) + 1..]
      && multiset(r.value.activeQuests) == multiset(c.activeQuests) - multiset{id}
      && r.value == c.(activeQuests := r.value.activeQuests)
  {
    if !IsActive(c, id) then Err(QuestNotActive)
    else Ok(c.(activeQuests := RemoveFirst(c.activeQuests, id)))
  }

  /** `can_accept_quest`. */
  predicate CanAccept(c: Character, id: string, t: QuestTable) {
    && id in t.defs
    && !IsCompleted(c, id)
    && !IsActive(c, id)
    && c.level >= t.defs[id].requiredLevel
    && PrerequisiteMet(c, t.defs[id])
  }

  /** The eligibility test agrees with acceptance: a quest can be accepted
      exactly when accepting it succeeds and adds it, and every refusal leaves
      the character unchanged. */
  lemma CanAcceptIffAccepted(c: Character, id: string, t: QuestTable)
    ensures CanAccept(c, id, t) <==> AcceptQuest(c, id, t) == Ok(c.(activeQuests := c.activeQuests + [id]))
    ensures !CanAccept(c, id, t) && AcceptQuest(c, id, t).Ok? ==> AcceptQuest(c, id, t).value == c
  {
    if IsActive(c, id) {
      assert |c.activeQuests + [id]| != |c.activeQuests|;
    }
  }

  /** Accepting, completing and abandoning all keep the quest log invariant. */
  lemma TransitionsKeepLog(c: Character, id: string, t: QuestTable)
    requires LogValid(c)
    ensures AcceptQuest(c, id, t).Ok? ==> LogValid(AcceptQuest(c, id, t).value)
    ensures CompleteQuest(c, id, t).Ok? ==> LogValid(CompleteQuest(c, id, t).value.0)
    ensures AbandonQuest(c, id).Ok? ==> LogValid(AbandonQuest(c, id).value)
  {
    if AcceptQuest(c, id, t).Ok? && !IsActive(c, id) {
      AppendDistinct(c.activeQuests, id);
    }
    if IsActive(c, id) {
      RemoveFirstDistinct(c.activeQuests, id);
    }
  }

  /** `get_available_quests`: the acceptable quests, in table order (their
      ids stand for the quest records). */
  function AvailableQuests(c: Character, t: QuestTable): (r: seq<string>)
    ensures forall id :: id in r <==> id in t.order && CanAccept(c, id, t)
    ensures Subsequence(r, t.order)
  {
    Filter(t.order, id => CanAccept(c, id, t))
  }

  /** On a well-formed table, a quest is offered exactly when it can be accepted,
      and no quest is offered twice. */
  lemma AvailableIffCanAccept(c: Character, t: QuestTable, id: string)
    requires WellFormed(t)
    ensures id in AvailableQuests(c, t) <==> CanAccept(c, id, t)
  {
  }

  /** `get_quests_by_level`: the quests whose required level lies in
      [lo, hi], in table order. */
  function QuestsByLevel(t: QuestTable, lo: int, hi: int): (r: seq<string>)
    ensures forall id :: id in r <==> id in t.order && id in t.defs && lo <= t.defs[id].requiredLevel <= hi
    ensures Subsequence(r, t.order)
  {
    Filter(t.order, id => id in t.defs && lo <= t.defs[id].requiredLevel <= hi)
  }

  /** A level range splits into two adjacent ranges; every available quest is
      listed for the range from its own required level to the character's. */
  lemma QuestsByLevelSplit(c: Character, t: QuestTable, lo: int, mid: int, hi: int, id: string)
    requires lo <= mid < hi
    ensures id in QuestsByLevel(t, lo, hi) <==> id in QuestsByLevel(t, lo, mid) || id in QuestsByLevel(t, mid + 1, hi)
    ensures id in AvailableQuests(c, t) ==> id in QuestsByLevel(t, t.defs[id].requiredLevel, c.level)
  {
  }

  /** Rewards of the listed quests that the table defines, summed front to back
      as the loop of `get_total_quest_rewards_earned` does. */
  function SumRewards(ids: seq<string>, defs: map<string, Quest>): Rewards {
    if ids == [] then Rewards(0, 0)
    else
      var rest := SumRewards(ids[1..], defs);
      if ids[0] in defs then Rewards(defs[ids[0]].rewardXp + rest.xp, defs[ids[0]].rewardGold + rest.gold)
      else rest
  }

  /** `get_total_quest_rewards_earned`. */
  function TotalRewards(c: Character, t: QuestTable): Rewards {
    SumRewards(c.completedQuests, t.defs)
  }

  /** Appending one id adds that quest's rewards to the sum. */
  lemma {:induction false} SumRewardsAppend(ids: seq<string>, id: string, defs: map<string, Quest>)
    requires id in defs
    ensures SumRewards(ids + [id], defs)
         == Rewards(SumRewards(ids, defs).xp + defs[id].rewardXp, SumRewards(ids, defs).gold + defs[id].rewardGold)
  {
    if ids == [] {
      assert ids + [id] == [id];
      assert [id][1..] == [];
    } else {
      assert (ids + [id])[1..] == ids[1..] + [id];
      SumRewardsAppend(ids[1..], id, defs);
    }
  }

  /** Completing a quest raises the total rewards earned by exactly the rewards
      it returns. */
  lemma CompleteAddsRewards(c: Character, id: string, t: QuestTable)
    requires CompleteQuest(c, id, t).Ok?
    ensures var (c', rw) := CompleteQuest(c, id, t).value;
      TotalRewards(c', t) == Rewards(TotalRewards(c, t).xp + rw.xp, TotalRewards(c, t).gold + rw.gold)
  {
    SumRewardsAppend(c.completedQuests, id, t.defs);
  }

  /** The prerequisite links followed from `cur`, nearest first. The walk stops
      at an empty or `"NONE"` link, and at a link to a missing quest, which it
      records followed by the marker. `seen` holds the quests already passed;
      meeting one again is a cycle, reported as an error. */
  function Walk(defs: map<string, Quest>, cur: string, seen: set<string>): (r: Result<seq<string>>)
    requires seen <= defs.Keys
    ensures r.Err? ==> r.error == PrerequisiteCycle
    ensures r.Ok? && IsId(cur) ==> |r.value| > 0 && r.value[0] == cur
    ensures r.Ok? && !IsId(cur) ==> r.value == []
    ensures r.Ok? ==> forall k :: 0 <= k < |r.value| - 1 && r.value[k + 1] != InvalidPrerequisite ==>
      r.value[k] in defs && defs[r.value[k]].prerequisite == r.value[k + 1]
    ensures r.Ok? && |r.value| > 0 && r.value[|r.value| - 1] != InvalidPrerequisite ==>
      var last := r.value[|r.value| - 1];
      last in defs && !IsId(defs[last].prerequisite)
    ensures r.Ok? && |r.value| > 0 && r.value[|r.value| - 1] == InvalidPrerequisite && InvalidPrerequisite !in defs ==>
      |r.value| >= 2 && r.value[|r.value| - 2] !in defs
    decreases |defs.Keys - seen|
  {
    if !IsId(cur) then Ok([])
    else if cur !in defs then Ok([cur, InvalidPrerequisite])
    else if cur in seen then Err(PrerequisiteCycle)
    else
      assert defs.Keys - (seen + {cur}) < defs.Keys - seen;
      var rest :- Walk(defs, defs[cur].prerequisite, seen + {cur});
      Ok([cur] + rest)
  }

  /** `get_quest_prerequisite_chain`: an unknown id is refused; otherwise the
      prerequisite links from the earliest one down to the quest itself. The
      chain ends with the quest, each entry is the prerequisite of the next,
      and it starts either with a quest that has no prerequisite or with the
      marker followed by the missing quest. A quest filed under an empty or
      `"NONE"` id has an empty chain. Where the links run in a circle the
      walk never ends; the model reports that as an error. */
  function PrerequisiteChain(t: QuestTable, id: string): (r: Result<seq<string>>)
    ensures id !in t.defs ==> r == Err(QuestNotFound)
    ensures r.Err? ==> r.error == QuestNotFound || r.error == PrerequisiteCycle
    ensures r.Ok? && !IsId(id) ==> r.value == []
    ensures r.Ok? && IsId(id) ==> |r.value| > 0 && r.value[|r.value| - 1] == id
    ensures r.Ok? ==> forall k :: 1 <= k < |r.value| && r.value[k - 1] != InvalidPrerequisite ==>
      r.value[k] in t.defs && t.defs[r.value[k]].prerequisite == r.value[k - 1]
    ensures r.Ok? && |r.value| > 0 && r.value[0] != InvalidPrerequisite ==>
      r.value[0] in t.defs && !IsId(t.defs[r.value[0]].prerequisite)
    ensures r.Ok? && |r.value| > 0 && r.value[0] == InvalidPrerequisite && InvalidPrerequisite !in t.defs ==>
      |r.value| >= 2 && r.value[1] !in t.defs
  {
    if id !in t.defs then Err(QuestNotFound)
    else
      var w :- Walk(t.defs, id, {});
      Ok(Reverse(w))
  }

  /** Every prerequisite that names a quest names one the table defines. */
  predicate PrerequisitesClosed(defs: map<string, Quest>) {
    forall id :: id in defs && IsId(defs[id].prerequisite) ==> defs[id].prerequisite in defs
  }

  /** `validate_quest_prerequisites`, over the ids in table order. */
  function ValidateFrom(ids: seq<string>, defs: map<string, Quest>): (r: Result<bool>)
    ensures r.Ok? <==> forall k :: 0 <= k < |ids| && ids[k] in defs && IsId(defs[ids[k]].prerequisite) ==>
                          defs[ids[k]].prerequisite in defs
    ensures r.Err? ==> r.error == QuestNotFound
    ensures r.Ok? ==> r.value
  {
    if ids == [] then Ok(true)
    else if ids[0] in defs && IsId(defs[ids[0]].prerequisite) && defs[ids[0]].prerequisite !in defs then
      Err(QuestNotFound)
    else
      var r := ValidateFrom(ids[1..], defs);
      assert forall k :: 1 <= k < |ids| ==> ids[k] == ids[1..][k - 1];
      r
  }

  /** `validate_quest_prerequisites`: succeeds exactly when every prerequisite
      that names a quest names a defined one, and otherwise reports a missing
      quest. */
  function ValidatePrerequisites(t: QuestTable): (r: Result<bool>)
    ensures WellFormed(t) ==> (r.Ok? <==> PrerequisitesClosed(t.defs))
    ensures r.Err? ==> r.error == QuestNotFound
  {
    var r := ValidateFrom(t.order, t.defs);
    assert WellFormed(t) ==> forall id :: id in t.defs ==> exists k :: 0 <= k < |t.order| && t.order[k] == id;
    r
  }

  /** On a table whose prerequisites are closed, every link the walk follows
      names a defined quest. */
  lemma {:induction false} WalkStaysDefined(defs: map<string, Quest>, cur: string, seen: set<string>)
    requires seen <= defs.Keys && PrerequisitesClosed(defs)
    requires IsId(cur) ==> cur in defs
    requires Walk(defs, cur, seen).Ok?
    ensures forall x :: x in Walk(defs, cur, seen).value ==> x in defs
    decreases |defs.Keys - seen|
  {
    if IsId(cur) && cur !in seen {
      assert defs.Keys - (seen + {cur}) < defs.Keys - seen;
      WalkStaysDefined(defs, defs[cur].prerequisite, seen + {cur});
    }
  }

  /** Once the table has passed validation, a prerequisite chain holds only
      defined quests and so never the marker of a missing one (as long as no
      quest is itself called by the marker's name). */
  lemma ValidatedChainComplete(t: QuestTable, id: string)
    requires WellFormed(t) && ValidatePrerequisites(t).Ok?
    requires PrerequisiteChain(t, id).Ok?
    ensures forall x :: x in PrerequisiteChain(t, id).value ==> x in t.defs
    ensures InvalidPrerequisite !in t.defs ==> InvalidPrerequisite !in PrerequisiteChain(t, id).value
  {
    WalkStaysDefined(t.defs, id, {});
    var w := Walk(t.defs, id, {}).value;
    forall x | x in Reverse(w) ensures x in w {
      var i :| 0 <= i < |w| && Reverse(w)[i] == x;
      assert w[|w| - 1 - i] == x;
    }
  }
}

=== FILE: sequences.dfy ===
/** List operations shared by the inventory and the quest log: removing the
    first occurrence of an id, counting occurrences, and order-preserving
    filtering. */
module Sequences {

  /** Index of the first occurrence of `x` in `s`. */
  function FirstIndex<T(==)>(s: seq<T>, x: T): (i: nat)
    requires x in s
    ensures i < |s| && s[i] == x
    ensures forall j :: 0 <= j < i ==> s[j] != x
  {
    if s[0] == x then 0 else 1 + FirstIndex(s[1..], x)
  }

  /** The copy loop that skips only the first element equal to `x`. Absent `x`
      leaves the list as it is; otherwise exactly the first occurrence goes
      and every other element keeps its relative order. */
  function RemoveFirst<T(==)>(s: seq<T>, x: T): (r: seq<T>)
    ensures x !in s ==> r == s
    ensures x in s ==> r == s[..FirstIndex(s, x)] + s[FirstIndex(s, x) + 1..]
    ensures x in s ==> |r| == |s| - 1
    ensures multiset(r) == multiset(s) - multiset{x}
  {
    if s == [] then []
    else if s[0] == x then
      RemoveHead(s, x);
      s[1..]
    else
      var rest := RemoveFirst(s[1..], x);
      RemoveFirstCons(s, x, rest);
      [s[0]] + rest
  }

  /** The step case of `RemoveFirst` when the head is the one removed. */
  lemma RemoveHead<T>(s: seq<T>, x: T)
    requires s != [] && s[0] == x
    ensures FirstIndex(s, x) == 0
    ensures multiset(s[1..]) == multiset(s) - multiset{x}
  {
    assert s == [s[0]] + s[1..];
    assert multiset(s) == multiset{x} + multiset(s[1..]);
  }

  /** The step case of `RemoveFirst` when the head is kept. */
  lemma RemoveFirstCons<T>(s: seq<T>, x: T, rest: seq<T>)
    requires s != [] && s[0] != x
    requires x !in s[1..] ==> rest == s[1..]
    requires x in s[1..] ==> rest == s[1..][..FirstIndex(s[1..], x)] + s[1..][FirstIndex(s[1..], x) + 1..]
    requires multiset(rest) == multiset(s[1..]) - multiset{x}
    ensures x !in s ==> [s[0]] + rest == s
    ensures x in s ==> [s[0]] + rest == s[..FirstIndex(s, x)] + s[FirstIndex(s, x) + 1..]
    ensures multiset([s[0]] + rest) == multiset(s) - multiset{x}
  {
    assert s == [s[0]] + s[1..];
    if x in s {
      ConsCut(s, x);
    }
    ConsMultiset(s, x, rest);
  }

  /** With a head other than `x`, the first `x` of `s` is one past the first
      `x` of its tail. */
  lemma ConsCut<T>(s: seq<T>, x: T)
    requires s != [] && s[0] != x && x in s
    ensures x in s[1..]
    ensures var i := FirstIndex(s[1..], x);
      [s[0]] + (s[1..][..i] + s[1..][i + 1..]) == s[..FirstIndex(s, x)] + s[FirstIndex(s, x) + 1..]
  {
    var i := FirstIndex(s[1..], x);
    assert FirstIndex(s, x) == i + 1;
    TailSlices(s, i);
  }

  /** Slices of the tail of `s`, seen as slices of `s`. */
  lemma TailSlices<T>(s: seq<T>, i: nat)
    requires i < |s| - 1
    ensures [s[0]] + (s[1..][..i] + s[1..][i + 1..]) == s[..i + 1] + s[i + 2..]
  {
    assert [s[0]] + s[1..][..i] == s[..i + 1];
    assert s[1..][i + 1..] == s[i + 2..];
  }

  lemma ConsMultiset<T>(s: seq<T>, x: T, rest: seq<T>)
    requires s != [] && s[0] != x
    requires multiset(rest) == multiset(s[1..]) - multiset{x}
    ensures multiset([s[0]] + rest) == multiset(s) - multiset{x}
  {
    assert s == [s[0]] + s[1..];
    assert multiset(s) == multiset{s[0]} + multiset(s[1..]);
  }

  /** Number of positions of `s` holding `x`. */
  function Count<T(==)>(s: seq<T>, x: T): (n: nat)
    ensures n == multiset(s)[x]
  {
    if s == [] then 0
    else
      assert s == [s[0]] + s[1..];
      (if s[0] == x then 1 else 0) + Count(s[1..], x)
  }

  /** No element occurs twice. */
  predicate Distinct<T(==)>(s: seq<T>) {
    forall i, j :: 0 <= i < j < |s| ==> s[i] != s[j]
  }

  /** `a` is `b` with some elements dropped and the rest kept in order. */
  predicate Subsequence<T(==)>(a: seq<T>, b: seq<T>)
    decreases |b|
  {
    if a == [] then true
    else if b == [] then false
    else (a[0] == b[0] && Subsequence(a[1..], b[1..])) || Subsequence(a, b[1..])
  }

  /** The elements of `s` that satisfy `keep`, in their original order. */
  function Filter<T(==,!new)>(s: seq<T>, keep: T -> bool): (r: seq<T>)
    ensures forall x :: x in r <==> x in s && keep(x)
    ensures Subsequence(r, s)
    ensures |r| <= |s|
  {
    if s == [] then []
    else
      var rest := Filter(s[1..], keep);
      if keep(s[0]) then
        assert forall x :: x in [s[0]] + rest <==> x == s[0] || x in rest;
        [s[0]] + rest
      else rest
  }

  /** Removing the first occurrence from a list without duplicates removes the
      element entirely and keeps the list duplicate-free. */
  lemma {:induction false} RemoveFirstDistinct<T>(s: seq<T>, x: T)
    requires Distinct(s)
    ensures x !in RemoveFirst(s, x)
    ensures Distinct(RemoveFirst(s, x))
    ensures forall y :: y in RemoveFirst(s, x) <==> y in s && y != x
  {
    if x in s {
      var i := FirstIndex(s, x);
      CutMembers(s, i);
      CutDistinct(s, i);
    }
  }

  /** Cutting position `i` out of a list without duplicates leaves exactly the
      other elements. */
  lemma CutMembers<T>(s: seq<T>, i: nat)
    requires Distinct(s) && i < |s|
    ensures forall y :: y in s[..i] + s[i + 1..] <==> y in s && y != s[i]
  {
    var r := s[..i] + s[i + 1..];
    ShiftedIndex(s, i);
    forall y | y in s && y != s[i] ensures y in r {
      var k :| 0 <= k < |s| && s[k] == y;
      if k < i { assert r[k] == y; } else { assert r[k - 1] == y; }
    }
    forall k | 0 <= k < |r| ensures r[k] != s[i] {
      assert r[k] == s[if k < i then k else k + 1];
    }
  }

  /** Cutting a position out of a list without duplicates keeps it so. */
  lemma CutDistinct<T>(s: seq<T>, i: nat)
    requires Distinct(s) && i < |s|
    ensures Distinct(s[..i] + s[i + 1..])
  {
    var r := s[..i] + s[i + 1..];
    ShiftedIndex(s, i);
    forall a, b | 0 <= a < b < |r| ensures r[a] != r[b] {
      assert r[a] == s[if a < i then a else a + 1];
      assert r[b] == s[if b < i then b else b + 1];
    }
  }

  /** Position `k` of `s` with index `i` cut out is position `k` or `k + 1` of `s`. */
  lemma ShiftedIndex<T>(s: seq<T>, i: nat)
    requires i < |s|
    ensures var r := s[..i] + s[i + 1..];
      |r| == |s| - 1 && forall k :: 0 <= k < |r| ==> r[k] == s[if k < i then k else k + 1]
  {
  }

  /** Appending an element that is not already present keeps a list duplicate-free. */
  lemma AppendDistinct<T>(s: seq<T>, x: T)
    requires Distinct(s) && x !in s
    ensures Distinct(s + [x])
  {
  }

  /** `s` back to front. */
  function Reverse<T>(s: seq<T>): (r: seq<T>)
    ensures |r| == |s|
    ensures forall i :: 0 <= i < |s| ==> r[i] == s[|s| - 1 - i]
  {
    if s == [] then [] else Reverse(s[1..]) + [s[0]]
  }
}

=== FILE: stats.dfy ===
/** The stat model of game_data.py: recomputing the derived stats from the base
    stats and the equipped items, and that file's own `gain_experience`. */
module Stats {
  import opened Errors
  import opened Text
  import opened Entities
  import Progression

  /** The stats recalculation owns: current max health, strength, magic,
      defense and attack. */
  datatype Derived = Derived(maxHealth: int, strength: int, magic: int, defense: int, attack: int)

  function DerivedOf(c: Character): Derived {
    Derived(c.maxHealth, c.strength, c.magic, c.defense, c.attack)
  }

  /** How recalculation reads an EFFECT string: text before the first ':' is
      the stat name (trimmed, lower-cased), text after it must be an integer.
      A missing or empty effect, one without ':', or one whose value is not an
      integer yields nothing. */
  function ReadBonus(effect: string): (r: Option<(string, int)>)
    ensures (forall j :: !OccursAt(effect, ":", j)) ==> r.None?
  {
    if effect == "" then None
    else match SplitFirst(effect, ":")
      case None => None
      case Some((a, b)) =>
        match ParseInt(Strip(b))
        case None => None
        case Some(v) => Some((Lower(Strip(a)), v))
  }

  /** The effect an equipment slot contributes: the slot must be non-empty and
      name an item of the table (the sentinel `"NONE"` is looked up like any id). */
  function SlotEffect(slot: string, table: ItemTable): Option<(string, int)> {
    if slot != "" && slot in table then ReadBonus(table[slot].effect) else None
  }

  /** The stat names recalculation knows. */
  predicate IsDerivedStat(name: string) {
    name == "max_health" || name == "strength" || name == "magic" || name == "defense" || name == "attack"
  }

  /** What one effect adds to each derived stat: its value to the stat it
      names, nothing to the others, nothing at all for an unknown name. */
  function BonusOf(effect: Option<(string, int)>): Derived {
    match effect
    case None => Derived(0, 0, 0, 0, 0)
    case Some((name, v)) =>
      Derived(if name == "max_health" then v else 0,
              if name == "strength" then v else 0,
              if name == "magic" then v else 0,
              if name == "defense" then v else 0,
              if name == "attack" then v else 0)
  }

  function Plus(a: Derived, b: Derived): Derived {
    Derived(a.maxHealth + b.maxHealth, a.strength + b.strength, a.magic + b.magic,
            a.defense + b.defense, a.attack + b.attack)
  }

  /** Reference definition: each derived stat is its base value (0 for
      defense and attack) plus the weapon's and the armour's bonus to it. */
  function ExpectedDerived(c: Character, table: ItemTable): Derived {
    Plus(Plus(Derived(c.baseHealth, c.baseStrength, c.baseMagic, 0, 0),
              BonusOf(SlotEffect(c.equippedWeapon, table))),
         BonusOf(SlotEffect(c.equippedArmor, table)))
  }

  /** One pass of the bonus loop: the if/elif chain over the five stat names. */
  function ApplyBonus(c: Character, effect: Option<(string, int)>): (r: Character)
    ensures DerivedOf(r) == Plus(DerivedOf(c), BonusOf(effect))
    ensures r == c.(maxHealth := r.maxHealth, strength := r.strength, magic := r.magic,
                    defense := r.defense, attack := r.attack)
  {
    match effect
    case None => c
    case Some((name, v)) =>
      if name == "max_health" then c.(maxHealth := c.maxHealth + v)
      else if name == "strength" then c.(strength := c.strength + v)
      else if name == "magic" then c.(magic := c.magic + v)
      else if name == "defense" then c.(defense := c.defense + v)
      else if name == "attack" then c.(attack := c.attack + v)
      else c
  }

  /** The derived stats with the weapon's and then the armour's bonus applied. */
  function Equipped(c: Character, table: ItemTable): (r: Character)
    ensures DerivedOf(r) == ExpectedDerived(c, table)
    ensures r == c.(maxHealth := r.maxHealth, strength := r.strength, magic := r.magic,
                    defense := r.defense, attack := r.attack)
  {
    var reset := c.(maxHealth := c.baseHealth, strength := c.baseStrength, magic := c.baseMagic,
                    defense := 0, attack := 0);
    ApplyBonus(ApplyBonus(reset, SlotEffect(c.equippedWeapon, table)), SlotEffect(c.equippedArmor, table))
  }

  /** Health rescaled from `oldMax` to `newMax` at the same ratio, truncated,
      then clamped into [0, newMax]; with no positive `oldMax` the ratio is 1. */
  function RescaleHealth(health: int, oldMax: int, newMax: int): (h: int)
    ensures newMax >= 0 ==> 0 <= h <= newMax
    ensures oldMax > 0 && 0 <= health <= oldMax && newMax >= 0 ==>
      h * oldMax <= newMax * health < (h + 1) * oldMax
    ensures oldMax <= 0 && newMax >= 0 ==> h == newMax
  {
    var restored := if oldMax > 0 then TruncDiv(newMax * health, oldMax) else newMax;
    RatioFloor(newMax, health, oldMax);
    if restored > newMax then newMax else if restored < 0 then 0 else restored
  }

  /** Python's `int()` of a float: division truncated toward zero. */
  function TruncDiv(a: int, b: int): int
    requires b > 0
  {
    if a >= 0 then a / b else -((-a) / b)
  }

  /** `recalculate_stats`: derived stats are reset to the base values and the
      weapon's and then the armour's bonus added; health is rescaled to the old
      health/max ratio (1 when the old max was not positive) against the new
      max, truncated, and clamped into [0, new max]. Nothing else changes. */
  function Recalculate(c: Character, table: ItemTable): (r: Character)
    ensures DerivedOf(r) == ExpectedDerived(c, table)
    ensures r == c.(maxHealth := r.maxHealth, strength := r.strength, magic := r.magic,
                    defense := r.defense, attack := r.attack, health := r.health)
    ensures r.maxHealth >= 0 ==> 0 <= r.health <= r.maxHealth
    ensures c.maxHealth > 0 && 0 <= c.health <= c.maxHealth && r.maxHealth >= 0 ==>
      r.health * c.maxHealth <= r.maxHealth * c.health < (r.health + 1) * c.maxHealth
    ensures c.maxHealth <= 0 && r.maxHealth >= 0 ==> r.health == r.maxHealth
  {
    var e := Equipped(c, table);
    e.(health := RescaleHealth(c.health, c.maxHealth, e.maxHealth))
  }

  /** Truncated scaling of a health in range stays in range and is the largest
      value whose ratio to the new max does not exceed the old ratio. */
  lemma RatioFloor(newMax: int, health: int, oldMax: int)
    ensures oldMax > 0 && 0 <= health <= oldMax && newMax >= 0 ==>
      var h := TruncDiv(newMax * health, oldMax);
      && 0 <= h <= newMax
      && h * oldMax <= newMax * health < (h + 1) * oldMax
  {
    if oldMax > 0 && 0 <= health <= oldMax && newMax >= 0 {
      var h := TruncDiv(newMax * health, oldMax);
      assert newMax * health >= 0;
      assert newMax * health <= newMax * oldMax;
      assert h == (newMax * health) / oldMax;
      DivBelow(newMax * health, oldMax, newMax);
    }
  }

  lemma DivBelow(a: int, b: int, m: int)
    requires b > 0 && 0 <= a <= m * b
    ensures 0 <= a / b <= m
    ensures (a / b) * b <= a < (a / b + 1) * b
  {
  }

  /** Recalculating again with unchanged base stats and equipment gives the
      same derived stats; when the max health is not negative the whole
      character is the same. */
  lemma RecalculateIdempotent(c: Character, table: ItemTable)
    ensures DerivedOf(Recalculate(Recalculate(c, table), table)) == DerivedOf(Recalculate(c, table))
    ensures Recalculate(c, table).maxHealth >= 0 ==>
      Recalculate(Recalculate(c, table), table) == Recalculate(c, table)
  {
    var r := Recalculate(c, table);
    assert r.equippedWeapon == c.equippedWeapon && r.equippedArmor == c.equippedArmor;
    assert r.baseHealth == c.baseHealth && r.baseStrength == c.baseStrength && r.baseMagic == c.baseMagic;
    if r.maxHealth > 0 {
      RescaleSame(r.health, r.maxHealth);
    }
  }

  /** Rescaling a health in range to the same max leaves it as it is. */
  lemma RescaleSame(h: int, m: int)
    requires 0 <= h <= m && m > 0
    ensures RescaleHealth(h, m, m) == h
  {
    UniqueQuotient(m, h, RescaleHealth(h, m, m));
  }

  /** Two candidates satisfying the same truncation bounds are equal. */
  lemma UniqueQuotient(m: int, h: int, h2: int)
    requires m > 0
    requires h2 * m <= m * h < (h2 + 1) * m
    ensures h2 == h
  {
    var x := h - h2;
    assert x * m == m * h - h2 * m;
    ProductBounds(x, m);
  }

  lemma ProductBounds(x: int, m: int)
    requires m > 0
    ensures x >= 1 ==> x * m >= m
    ensures x <= -1 ==> x * m <= -m
  {
    if x >= 1 { MulMono(1, x, m); }
    if x <= -1 { MulMono(x, -1, m); }
  }

  lemma MulMono(a: int, b: int, m: int)
    requires a <= b && m >= 0
    ensures a * m <= b * m
  {
    assert b * m == a * m + (b - a) * m;
  }

  /** A weapon whose effect cannot be read, names a stat recalculation does not
      know, or is missing from the table contributes nothing: the derived stats
      are those of the same character with the weapon slot empty. The same holds
      for the armour slot. */
  lemma IneffectiveSlotIgnored(c: Character, table: ItemTable)
    requires SlotEffect(c.equippedWeapon, table).None?
             || !IsDerivedStat(SlotEffect(c.equippedWeapon, table).value.0)
    ensures DerivedOf(Recalculate(c, table)) == DerivedOf(Recalculate(c.(equippedWeapon := ""), table))
    ensures DerivedOf(Recalculate(c.(equippedWeapon := c.equippedArmor, equippedArmor := c.equippedWeapon), table))
         == DerivedOf(Recalculate(c.(equippedWeapon := c.equippedArmor, equippedArmor := ""), table))
  {
  }

  /** A fresh character has no equipment bonus to apply, so recalculating it
      changes nothing (as long as no item is registered under `"NONE"`). */
  lemma CreatedIsRecalculated(name: string, cls: string, table: ItemTable)
    requires Progression.CreateCharacter(name, cls).Ok?
    requires NoneId !in table
    ensures var c := Progression.CreateCharacter(name, cls).value;
      Recalculate(c, table) == c
  {
    var c := Progression.CreateCharacter(name, cls).value;
    var r := Recalculate(c, table);
    assert c.maxHealth > 0 && 0 <= c.health <= c.maxHealth;
    UniqueQuotient(c.maxHealth, c.health, r.health);
  }

  /** An effect written as `name: value`, with a lower-case unpadded name free
      of ':', reads back as that name and value. */
  lemma ReadBonusOfWritten(name: string, v: int)
    requires ':' !in name
    requires Lower(name) == name && Strip(name) == name
    ensures ReadBonus(name + ": " + FormatInt(v)) == Some((name, v))
  {
    var f := FormatInt(v);
    var e := name + ": " + f;
    Regroup(name, ':', ' ', f);
    SplitWritten(name, " " + f);
    ParseFormatRoundTrip(v);
    StripOneBlank(f);
    var parsed := ParseInt(Strip(" " + f));
    assert parsed == Some(v);
    assert Lower(Strip(name)) == name;
  }

  lemma Regroup<T>(a: seq<T>, x: T, y: T, b: seq<T>)
    ensures a + [x, y] + b == a + [x] + ([y] + b)
  {
  }

  /** Splitting `a:b` at the first ':' gives `a` and `b` when `a` has none. */
  lemma SplitWritten(a: string, b: string)
    requires ':' !in a
    ensures a + ":" + b != ""
    ensures SplitFirst(a + ":" + b, ":") == Some((a, b))
  {
    var e := a + ":" + b;
    assert OccursAt(e, ":", |a|) by { assert e[|a|..|a| + 1] == ":"; }
    forall j | 0 <= j < |a| ensures !OccursAt(e, ":", j) {
      assert e[j] == a[j];
    }
    FindFirst(e, ":", |a|);
    assert e[..|a|] == a;
    assert e[|a| + 1..] == b;
  }

  lemma MaxHealthEffectText()
    ensures "max_health: 20" == "max_health" + ": " + FormatInt(20)
  {
    assert FormatInt(20) == "20";
    var e := "max_health" + ": " + "20";
    assert |e| == 14;
    forall i | 0 <= i < 14 ensures e[i] == "max_health: 20"[i] {
    }
  }

  /** A character at 40 of 80 health who wears armour adding 20 max health ends
      at 50 of 100: the health ratio is kept. */
  lemma HealthRatioExample(c: Character, table: ItemTable)
    requires c.baseHealth == 80 && c.maxHealth == 80 && c.health == 40
    requires c.equippedWeapon == NoneId && NoneId !in table
    requires c.equippedArmor != "" && c.equippedArmor in table
    requires table[c.equippedArmor].effect == "max_health: 20"
    ensures Recalculate(c, table).maxHealth == 100
    ensures Recalculate(c, table).health == 50
  {
    MaxHealthArmor(c.equippedArmor, table);
    assert SlotEffect(c.equippedWeapon, table) == None;
    var r := Recalculate(c, table);
    assert r.maxHealth == 100;
    UniqueQuotient(80, 50, r.health);
  }

  /** An item whose effect reads "max_health: 20" adds 20 to max health. */
  lemma MaxHealthArmor(id: string, table: ItemTable)
    requires id != "" && id in table && table[id].effect == "max_health: 20"
    ensures SlotEffect(id, table) == Some(("max_health", 20))
  {
    MaxHealthNoColon();
    MaxHealthLower();
    MaxHealthUnpadded();
    ReadBonusOfWritten("max_health", 20);
    MaxHealthEffectText();
  }

  /** "max_health" is a plain stat name: no ':', lower-case and unpadded. */
  lemma MaxHealthNoColon()
    ensures ':' !in "max_health"
  {
    var s := "max_health";
    assert s == ['m', 'a', 'x', '_', 'h', 'e', 'a', 'l', 't', 'h'];
  }

  lemma MaxHealthLower()
    ensures Lower("max_health") == "max_health"
  {
    LowerUnchanged("max_health");
  }

  lemma MaxHealthUnpadded()
    ensures Strip("max_health") == "max_health"
  {
    var s := "max_health";
    assert s[0] == 'm' && s[|s| - 1] == 'h';
    StripUnpadded(s);
  }

  /** `gain_experience` of game_data.py: a dead character is refused; otherwise
      only the experience already stored is run through the level-up loop (the
      amount passed in is never added). On a level-up max health becomes the new
      base health and health is refilled; strength and magic are left alone. */
  function GainStoredExperience(c: Character, amount: int): (r: Result<(Character, bool)>)
    ensures c.health <= 0 <==> r.Err?
    ensures r.Err? ==> r.error == CharacterDead
    ensures r.Ok? ==>
      var (c', leveled) := r.value;
      && (leveled <==> c.experience >= Progression.Threshold(c.level))
      && c'.experience < Progression.Threshold(c'.level)
      && c.experience == c'.experience + Progression.XpBetween(c.level, c'.level)
      && c'.baseHealth == c.baseHealth + 10 * (c'.level - c.level)
      && c'.baseStrength == c.baseStrength + 2 * (c'.level - c.level)
      && c'.baseMagic == c.baseMagic + 2 * (c'.level - c.level)
      && (leveled ==> c'.maxHealth == c'.baseHealth && c'.health == c'.maxHealth)
      && (!leveled ==> c' == c)
      && c' == c.(level := c'.level, experience := c'.experience, baseHealth := c'.baseHealth,
                  baseStrength := c'.baseStrength, baseMagic := c'.baseMagic,
                  maxHealth := c'.maxHealth, health := c'.health)
  {
    if Progression.IsDead(c) then Err(CharacterDead)
    else
      var r := Progression.LevelUpLoop(c);
      if r.level > c.level then Ok((r.(maxHealth := r.baseHealth, health := r.baseHealth), true))
      else Ok((r, false))
  }

  /** The amount passed to game_data.py's `gain_experience` makes no difference,
      and the call behaves like character_manager.py's with an amount of zero
      except that strength and magic are not reset to their base values. */
  lemma StoredExperienceIgnoresAmount(c: Character, a: int, b: int)
    ensures GainStoredExperience(c, a) == GainStoredExperience(c, b)
    ensures GainStoredExperience(c, a).Ok? ==>
      var (c1, l1) := GainStoredExperience(c, a).value;
      var (c2, l2) := Progression.GainExperience(c, 0).value;
      l1 == l2 && c1 == c2.(strength := c1.strength, magic := c1.magic)
  {
    assert c.(experience := c.experience + 0) == c;
  }
}

=== FILE: text.dfy ===
/** The handful of Python string operations the game core relies on when it
    reads item effects and costs: `str.strip()`, `str.lower()`, `sep in s`,
    `s.split(sep, 1)` and `int(s)`. */
module Text {
  import opened Errors

  /** The characters Python's `str.isspace()` accepts, which `strip()` removes. */
  predicate IsSpace(ch: char) {
    || ch == ' ' || ch == '\t' || ch == '\n' || ch == '\r' || ch == '\U{000B}' || ch == '\U{000C}'
    || ('\U{001C}' <= ch <= '\U{001F}')
    || ch == '\U{0085}' || ch == '\U{00A0}' || ch == '\U{1680}'
    || ('\U{2000}' <= ch <= '\U{200A}')
    || ch == '\U{2028}' || ch == '\U{2029}' || ch == '\U{202F}' || ch == '\U{205F}' || ch == '\U{3000}'
  }

  predicate AllSpace(s: string) {
    forall i :: 0 <= i < |s| ==> IsSpace(s[i])
  }

  /** Number of whitespace characters in `s` from index `i` on, before the
      first other character. */
  function LeadingSpaces(s: string, i: nat): (n: nat)
    requires i <= |s|
    ensures i + n <= |s|
    ensures forall j :: i <= j < i + n ==> IsSpace(s[j])
    ensures i + n < |s| ==> !IsSpace(s[i + n])
    decreases |s| - i
  {
    if i == |s| || !IsSpace(s[i]) then 0 else 1 + LeadingSpaces(s, i + 1)
  }

  /** Number of whitespace characters at the back of `s[lo..hi]`. */
  function TrailingSpaces(s: string, lo: nat, hi: nat): (n: nat)
    requires lo <= hi <= |s|
    ensures lo + n <= hi
    ensures forall j :: hi - n <= j < hi ==> IsSpace(s[j])
    ensures lo + n < hi ==> !IsSpace(s[hi - n - 1])
    decreases hi - lo
  {
    if hi == lo || !IsSpace(s[hi - 1]) then 0 else 1 + TrailingSpaces(s, lo, hi - 1)
  }

  /** Python's `s.strip()`: the slice of `s` left once the leading and the
      trailing whitespace are cut away. It neither starts nor ends with
      whitespace, and only whitespace lies outside it. */
  function Strip(s: string): (r: string)
    ensures r == [] || (!IsSpace(r[0]) && !IsSpace(r[|r| - 1]))
    ensures r == [] ==> AllSpace(s)
    ensures var lo := LeadingSpaces(s, 0);
      && lo + |r| <= |s| && r == s[lo..lo + |r|]
      && (forall i :: 0 <= i < lo ==> IsSpace(s[i]))
      && (forall i :: lo + |r| <= i < |s| ==> IsSpace(s[i]))
  {
    var lo := LeadingSpaces(s, 0);
    var k := TrailingSpaces(s, lo, |s|);
    if lo == |s| then []
    else
      assert lo + k < |s|;
      s[lo..|s| - k]
  }

  /** ASCII case folding; other characters are left as they are. */
  function LowerChar(ch: char): (r: char)
    ensures !('A' <= r <= 'Z')
    ensures !('A' <= ch <= 'Z') ==> r == ch
  {
    if 'A' <= ch <= 'Z' then (ch as int + 32) as char else ch
  }

  /** Python's `s.lower()` restricted to ASCII letters. */
  function Lower(s: string): (r: string)
    ensures |r| == |s|
    ensures forall i :: 0 <= i < |s| ==> r[i] == LowerChar(s[i])
  {
    if s == [] then [] else [LowerChar(s[0])] + Lower(s[1..])
  }

  /** A string without upper-case ASCII letters is its own lower-case form. */
  lemma LowerUnchanged(s: string)
    requires forall i :: 0 <= i < |s| ==> !('A' <= s[i] <= 'Z')
    ensures Lower(s) == s
  {
  }

  /** `sep` occurs in `s` starting at index `i`. */
  predicate OccursAt(s: string, sep: string, i: int) {
    0 <= i && i + |sep| <= |s| && s[i..i + |sep|] == sep
  }

  /** First index at or after `from` where `sep` occurs in `s`. */
  function FindFrom(s: string, sep: string, from: nat): (r: Option<nat>)
    requires from <= |s|
    ensures r.Some? ==> from <= r.value && OccursAt(s, sep, r.value)
    ensures r.Some? ==> forall j :: from <= j < r.value ==> !OccursAt(s, sep, j)
    ensures r.None? ==> forall j :: from <= j ==> !OccursAt(s, sep, j)
    decreases |s| - from
  {
    if from + |sep| > |s| then None
    else if s[from..from + |sep|] == sep then Some(from)
    else if from == |s| then None
    else FindFrom(s, sep, from + 1)
  }

  /** Python's `sep in s` together with the index of the first occurrence. */
  function Find(s: string, sep: string): (r: Option<nat>)
    ensures r.Some? ==> OccursAt(s, sep, r.value)
    ensures r.Some? ==> forall j :: 0 <= j < r.value ==> !OccursAt(s, sep, j)
    ensures r.None? <==> forall j :: !OccursAt(s, sep, j)
  {
    FindFrom(s, sep, 0)
  }

  /** Python's `s.split(sep, 1)` when `sep in s`: the text before the first
      occurrence of `sep` and the text after it. */
  function SplitFirst(s: string, sep: string): (r: Option<(string, string)>)
    ensures r.None? <==> forall j :: !OccursAt(s, sep, j)
    ensures r.Some? ==> r.value.0 + sep + r.value.1 == s
    ensures r.Some? ==> forall j :: 0 <= j < |r.value.0| ==> !OccursAt(s, sep, j)
  {
    match Find(s, sep)
    case None => None
    case Some(i) =>
      assert s[..i] + sep + s[i + |sep|..] == s by {
        assert s == s[..i] + s[i..i + |sep|] + s[i + |sep|..];
      }
      Some((s[..i], s[i + |sep|..]))
  }

  predicate IsDigit(ch: char) {
    '0' <= ch <= '9'
  }

  function DigitValue(ch: char): nat {
    if IsDigit(ch) then ch as int - '0' as int else 0
  }

  /** The body of a base-10 literal Python's `int()` accepts: digits, with single
      underscores allowed between two digits. */
  predicate IsNumeral(s: string) {
    && |s| > 0
    && IsDigit(s[0])
    && IsDigit(s[|s| - 1])
    && (forall i :: 0 <= i < |s| ==> IsDigit(s[i]) || s[i] == '_')
    && (forall i :: 0 <= i < |s| - 1 ==> s[i] == '_' ==> IsDigit(s[i + 1]))
  }

  /** Value of a numeral, underscores ignored. */
  function NumeralValue(s: string): nat {
    if s == [] then 0
    else if s[|s| - 1] == '_' then NumeralValue(s[..|s| - 1])
    else NumeralValue(s[..|s| - 1]) * 10 + DigitValue(s[|s| - 1])
  }

  /** Python's `int(s)` for a string `s`: surrounding whitespace, an optional
      sign, then a numeral; `None` where Python raises ValueError. */
  function ParseInt(s: string): (r: Option<int>)
    ensures r.Some? ==> var t := Strip(s); |t| > 0 && (IsDigit(t[0]) || t[0] == '-' || t[0] == '+')
  {
    var t := Strip(s);
    if |t| > 0 && (t[0] == '-' || t[0] == '+') then
      if IsNumeral(t[1..]) then
        var v: int := NumeralValue(t[1..]);
        Some(if t[0] == '-' then -v else v)
      else None
    else if IsNumeral(t) then Some(NumeralValue(t))
    else None
  }

  function DigitChar(d: nat): char
    requires d < 10
  {
    ('0' as int + d) as char
  }

  /** Python's `str(n)` for a non-negative integer. */
  function FormatNat(n: nat): (r: string)
    ensures |r| > 0 && IsDigit(r[0]) && IsDigit(r[|r| - 1])
    ensures forall i :: 0 <= i < |r| ==> IsDigit(r[i])
  {
    if n < 10 then [DigitChar(n)] else FormatNat(n / 10) + [DigitChar(n % 10)]
  }

  /** Python's `str(n)`. */
  function FormatInt(n: int): (r: string)
    ensures |r| > 0 && (r[0] == '-' || IsDigit(r[0])) && IsDigit(r[|r| - 1])
    ensures !IsSpace(r[0]) && !IsSpace(r[|r| - 1])
  {
    if n < 0 then "-" + FormatNat(-n) else FormatNat(n)
  }

  lemma {:induction false} NumeralValueOfFormat(n: nat)
    ensures NumeralValue(FormatNat(n)) == n
  {
    if n >= 10 {
      var s := FormatNat(n);
      assert s[..|s| - 1] == FormatNat(n / 10);
      NumeralValueOfFormat(n / 10);
    }
  }

  /** `int(str(n)) == n`: the parser reads back every integer the formatter writes. */
  lemma ParseFormatRoundTrip(n: int)
    ensures ParseInt(FormatInt(n)) == Some(n)
  {
    var s := FormatInt(n);
    var d := if n < 0 then -n else n;
    NumeralValueOfFormat(d);
    assert !IsSpace(s[0]) && !IsSpace(s[|s| - 1]);
    StripUnpadded(s);
    if n < 0 {
      assert s[1..] == FormatNat(d);
    }
  }

  /** A string with no whitespace at either end is its own strip. */
  lemma StripUnpadded(s: string)
    requires s == [] || (!IsSpace(s[0]) && !IsSpace(s[|s| - 1]))
    ensures Strip(s) == s
  {
    if s != [] {
      assert LeadingSpaces(s, 0) == 0;
      assert TrailingSpaces(s, 0, |s|) == 0;
    }
  }

  /** Stripping twice is stripping once. */
  lemma StripIdempotent(s: string)
    ensures Strip(Strip(s)) == Strip(s)
  {
    StripUnpadded(Strip(s));
  }

  /** The first occurrence is the one `Find` reports. */
  lemma FindFirst(s: string, sep: string, i: nat)
    requires OccursAt(s, sep, i)
    requires forall j :: 0 <= j < i ==> !OccursAt(s, sep, j)
    ensures Find(s, sep) == Some(i)
  {
  }

  /** Whitespace around a word is exactly what `Strip` removes. */
  lemma StripPadded(lead: string, x: string, trail: string)
    requires AllSpace(lead) && AllSpace(trail)
    requires x != [] && !IsSpace(x[0]) && !IsSpace(x[|x| - 1])
    ensures Strip(lead + x + trail) == x
  {
    var s := lead + x + trail;
    PaddedLeading(lead, x, trail);
    PaddedLength(lead, x, trail);
    assert s[|lead|..|lead| + |x|] == x;
  }

  /** The whitespace `Strip` skips at the front of a padded word is the lead. */
  lemma PaddedLeading(lead: string, x: string, trail: string)
    requires AllSpace(lead)
    requires x != [] && !IsSpace(x[0])
    ensures LeadingSpaces(lead + x + trail, 0) == |lead|
  {
    var s := lead + x + trail;
    assert s[|lead|] == x[0];
    assert forall j :: 0 <= j < |lead| ==> s[j] == lead[j];
  }

  /** What `Strip` keeps of a padded word is as long as the word. */
  lemma PaddedLength(lead: string, x: string, trail: string)
    requires AllSpace(lead) && AllSpace(trail)
    requires x != [] && !IsSpace(x[0]) && !IsSpace(x[|x| - 1])
    ensures |Strip(lead + x + trail)| == |x|
  {
    var s := lead + x + trail;
    var u := lead + x;
    PaddedLeading(lead, x, trail);
    var r := Strip(s);
    assert r != [] by { assert s[|lead|] == x[0]; }
    var hi := |lead| + |r|;
    assert s[|u| - 1] == x[|x| - 1];
    assert hi >= |u|;
    assert !IsSpace(s[hi - 1]) by { assert s[hi - 1] == r[|r| - 1]; }
    TrailSpaces(u, trail);
  }

  /** Past a word, a padded string holds only the trailing whitespace. */
  lemma TrailSpaces(u: string, trail: string)
    requires AllSpace(trail)
    ensures forall j :: |u| <= j < |u + trail| ==> IsSpace((u + trail)[j])
  {
    forall j | |u| <= j < |u + trail| ensures IsSpace((u + trail)[j]) {
      assert (u + trail)[j] == trail[j - |u|];
    }
  }

  /** One blank in front of an unpadded string is what `strip()` removes. */
  lemma StripOneBlank(s: string)
    requires s != [] && !IsSpace(s[0]) && !IsSpace(s[|s| - 1])
    ensures Strip(" " + s) == s
  {
    var t := " " + s;
    assert LeadingSpaces(t, 1) == 0;
    assert LeadingSpaces(t, 0) == 1;
    assert TrailingSpaces(t, 1, |t|) == 0;
    assert t[1..] == s;
  }
}
